=== FILE: README.md ===
# BagExpress business rules in Dafny

BagExpress is a luggage-delivery marketplace. Customers book a pickup and a delivery of their bags. Drivers accept rides and then pick up and deliver the bags. This project models the business rules that sit under the user interface and the database layer:

- **Pricing and the revenue split** (`Pricing`). A fixed unit price per baggage size, times the bag count, plus a service fee of 2 € gives the price. The platform keeps 20 % as commission and the driver gets 80 %. Money is an exact `real`, so commission + earnings = price is a theorem, not a rounding accident.
- **The booking form** (`BookingForm`). This covers:
  - the form's own copy of the price table and the prices printed on the size buttons;
  - the 1 → 2 → 3 step navigation and the invariant it keeps;
  - the address-suggestion updates;
  - the request body built on submission.
- **Booking creation and listing** (`BookingsApi` over `Store`). `POST` derives the stored record: the commission split, the upper-cased size, the split coordinates, and a temporary customer when no customer id is given. `GET` lists bookings newest first.
- **The customer dashboard** (`Dashboard`). It keeps the customer's own bookings and splits them into an in-progress tab and a history tab. It also gives each status a label and a colour.
- **The driver console** (`DriverConsole`). This covers the three tabs, the tab badges, the daily-earnings header, and the status each action sends. It also covers the QR-confirm dispatch. Clicks reach only the buttons the page renders: a card's accept button exists only for status `'available'`, and the scanner buttons only for `'accepted'` or `'picked-up'`. The console as written therefore never sends a request (see Findings).
- **Two small stores.**
  - Driver registration (`DriversApi`): an in-memory list that `POST` appends to, with forced default statistics.
  - Sign-up (`SignupApi`): field validation, email uniqueness, a hashed password, and the public response.

Shared pieces:
- `Common` holds `Option`, JSON values and the truthiness of an optional string.
- `Seqs` holds order-preserving `Filter`, `Count`, `SumBy` and their lemmas.
- `Text` holds ASCII upper-casing.

Statuses are plain strings, not a closed enumeration. The application writes uppercase tokens (`PENDING`, `ACCEPTED`, `PICKED_UP`, `DELIVERED`, `CANCELLED`). Parts of the driver console compare against lowercase or hyphenated tokens. Keeping strings lets the model state what those comparisons really do.

Everything the code receives from outside is a parameter of the model:
- the hash function (`hash`);
- generated ids (`newUserId`, `newBookingId`, `generatedId`, `newId`);
- the clock (`clockText`, `now`);
- `parseFloat` (`parse`) and `new Date(..).toISOString()` (`toIso`);
- whether a server answer was successful (`ok`, `reachable`);
- which texts `new Date(..)` accepts as a date (`validInstant`).

Facts about the code that the model keeps:
- **Price.** The create handler stores the `price` the client sent, verbatim, and derives only the 20/80 split from it. Only the booking form computes a price (`BookingsApi.CreateDerivesRecord`, `BookingForm.SubmittedRequestIsStored`).
- **Validation.** The create handler accepts any size string and upper-cases it, and it does not check the bag count. It fails with 400 when the body is not JSON or is `null` (`BookingsApi.CreateBody`), when it dereferences an absent coordinate pair or size, or when the database refuses the write: a customer id that no user carries, a pickup time that is not a date, a reused id (`BookingsApi.CreateSucceedsIff`). The sign-up handler answers 500, not 400, for a body that is not JSON or is `null` (`SignupApi.SignupBody`).
- **Initial status.** The create handler does not set a status. The database schema supplies it, and the schema is not part of this model, so the model takes it as the parameter `initialStatus`. The consoles look for `PENDING`.
- **Driver statistics.** No modelled handler updates a driver's rating, delivery count or earnings after a delivery.

## Model

| member | source | states |
|---|---|---|
| Pricing.UnitPrice | types/index.ts:46-51 | every entry of the price table is positive |
| Pricing.TotalPrice | types/index.ts:53-59 | for at least one bag the price is at least one unit price plus the 2 € fee; for no bags it is at least the fee |
| Pricing.DriverEarnings | types/index.ts:61-63 | what the price loses to become the earnings is exactly the 20 % commission share; for a non-negative price, 0 ≤ earnings ≤ price |
| Pricing.Commission | types/index.ts:54 | for a non-negative price the commission lies between 0 and the price |
| Pricing.CommissionPlusEarnings | types/index.ts:54-63 | commission + driver earnings = price, exactly |
| Pricing.UnitPriceStrictlyIncreasing | types/index.ts:46-51 | small < medium < large < xlarge per bag, in both directions |
| Pricing.TotalPriceMonotoneInSize | types/index.ts:46-59 | for a fixed bag count the price never decreases with size, and strictly increases for at least one bag |
| Pricing.TotalPriceStrictlyIncreasingInCount | types/index.ts:57-59 | each extra bag adds exactly its unit price, so the price strictly increases with the count |
| Pricing.MediumTwoBagsExample | types/index.ts:46-63 | two medium bags cost 26 €, split 5.2 € commission and 20.8 € earnings |
| Text.ToUpper | app/api/bookings/route.ts:77 | upper-casing keeps the length, capitalises exactly the lowercase letters and leaves no lowercase letter |
| Text.ToUpperIdempotent | app/api/bookings/route.ts:77 | upper-casing an already upper-cased size changes nothing |
| Text.ToUpperFixesUpper | app/api/bookings/route.ts:77 | a string without lowercase letters is stored as sent |
| BookingsApi.ResolveCustomer | app/api/bookings/route.ts:50-64 | a given (truthy) customer id is used and no user is created; otherwise a successful resolution adds exactly the temporary CLIENT user under a fresh email and uses its id |
| BookingsApi.TempUser | app/api/bookings/route.ts:54-62 | the temporary customer is a CLIENT filed under the clock email with the generated id, carrying the request's name and phone |
| BookingsApi.Derive | app/api/bookings/route.ts:66-83 | the stored record's commission and earnings add up to its price, which is the request's price; they are the shared helpers' commission and driver earnings of that price |
| BookingsApi.Create | app/api/bookings/route.ts:45-106 | success appends exactly the new record, whose customer is a stored user, and stores the client price with 0.2/0.8 shares; failure leaves the bookings unchanged; users change at most by the temporary customer, and only when no customer id was given; once the temporary customer is written it stays, even when the request then fails with 400 |
| BookingsApi.CreateBody | app/api/bookings/route.ts:45-104 | a body that is not JSON or is null answers 400 and changes nothing; a readable body is handled by the create step |
| BookingsApi.CreateDerivesRecord | app/api/bookings/route.ts:66-83 | the stored price is the request's, unrecomputed; the shares sum to it; the size is the upper-cased token; latitude and longitude are the two halves of each pair; name, phone, both addresses, bag count and pickup time are copied; the status is the schema's initial one; no driver is assigned |
| BookingsApi.CreateSucceedsIff | app/api/bookings/route.ts:45-106 | creation succeeds exactly when both pairs and the size are present, the pickup time is a date, the booking id is fresh, and the given customer id belongs to a stored user or, with none given, the temporary user can be created |
| BookingsApi.CreateKeepsWellFormed | app/api/bookings/route.ts:66-93 | creation keeps every user filed under its own email and every booking pointing at a stored customer |
| BookingsApi.CreateResolvesCustomer | app/api/bookings/route.ts:50-64 | with a customer id the booking belongs to it and users are unchanged; without one, exactly one new CLIENT user is added and the booking belongs to it |
| BookingsApi.CreateIgnoresInstructions | app/api/bookings/route.ts:66-83 | the special instructions the client sends have no effect on what is stored |
| BookingsApi.InsertNewestFirst | app/api/bookings/route.ts:29-31 | inserting into a newest-first list keeps it newest-first and adds exactly that booking |
| BookingsApi.SortNewestFirst | app/api/bookings/route.ts:29-31 | the result is ordered by creation time, newest first, and is a permutation of the input |
| BookingsApi.List | app/api/bookings/route.ts:5-41 | a readable store yields all its bookings (as a multiset), newest first; an unreadable one yields status 500 |
| BookingForm.FormTableMatchesShared | app/book/page.tsx:34-39 | the form's price table equals the shared table entry for entry |
| BookingForm.SizeButtonsShowTablePrices | app/book/page.tsx:358-363 | each size button prints the table's price for its size, and each size has exactly one button |
| BookingForm.CalculatePrice | app/book/page.tsx:120-124 | the form's price equals the shared total-price helper on every state |
| BookingForm.InitialPrice | app/book/page.tsx:46-55 | the initial form (one medium bag) prices at 14 € |
| BookingForm.SelectPickup | app/book/page.tsx:102-109 | choosing a pickup suggestion sets the pickup text and the parsed coordinates and leaves every other field unchanged |
| BookingForm.SelectDelivery | app/book/page.tsx:111-118 | choosing a delivery suggestion sets the delivery text and the parsed coordinates and leaves every other field unchanged |
| BookingForm.SelectKeepsPrice | app/book/page.tsx:102-124 | choosing a suggestion never changes the price |
| BookingForm.Navigate | app/book/page.tsx:338-479 | the step stays in {1,2,3}; step 1 advances to 2 exactly when both addresses are non-empty and otherwise stays; step 2 goes back to 1 or on to 3; step 3 goes back to 2 and has no forward button |
| BookingForm.Apply | app/book/page.tsx:268-437 | addresses change only on step 1, bag, time and instructions only on step 2, the step only through the navigation buttons; continue and back move as the navigation rule says, and each step-1 or step-2 control sets exactly its own field; the step stays in {1,2,3} and, past step 1, both addresses are non-empty |
| BookingForm.Run | app/book/page.tsx:338-341 | every state reachable by interactions keeps that invariant |
| BookingForm.Submit | app/book/page.tsx:126-157 | with no session the form redirects to login and sends nothing; an invalid pickup time sends nothing; otherwise the body carries the session id and name, the addresses and coordinates, the size token, the special instructions, and a price equal to the form's price |
| BookingForm.ReviewStepReachable | app/book/page.tsx:268-437 | typing both addresses and continuing twice reaches step 3 with those addresses |
| BookingForm.SubmitAfterRun | app/book/page.tsx:126-157 | a signed-in submission with a valid date from any step-3 state a run reaches is sent, with non-empty addresses and the shared-table price |
| BookingForm.SubmittedRequestIsStored | app/book/page.tsx:144-157 | a form submission is accepted by the create route, and the booking is stored at the form's price for the session's customer without creating a user |
| Dashboard.CustomerBookings | app/dashboard/page.tsx:54-56 | exactly the bookings whose customer id is the session user's, each as often as in the listing, in listing order; none when the response has no list |
| Dashboard.ActiveBookings | app/dashboard/page.tsx:99-101 | exactly the bookings that are neither delivered nor cancelled, each as often as in the list, in order |
| Dashboard.HistoryBookings | app/dashboard/page.tsx:102-104 | exactly the delivered or cancelled bookings, each as often as in the list, in order |
| Dashboard.TabsPartition | app/dashboard/page.tsx:99-104 | every booking is in exactly one tab, and the two tab counts add up to the number of bookings |
| Dashboard.TabsNewestFirst | app/dashboard/page.tsx:54-104 | both tabs of a dashboard loaded from the listing are newest first |
| Dashboard.StatusColor | app/dashboard/page.tsx:65-80 | the grey default is used exactly for strings that are not one of the five statuses |
| Dashboard.StatusColorsDistinguish | app/dashboard/page.tsx:65-80 | the five statuses get pairwise distinct colours |
| Dashboard.StatusText | app/dashboard/page.tsx:82-97 | a status is shown unchanged exactly when it is not one of the five |
| Dashboard.StatusLabelsDistinguish | app/dashboard/page.tsx:82-97 | the five statuses get five distinct labels |
| DriverConsole.TabDeliveries | app/driver/page.tsx:150-155 | available = status PENDING, any driver; active = ACCEPTED or PICKED_UP assigned to this driver; completed = DELIVERED assigned to this driver; each kept booking as often as in the listing, in listing order |
| DriverConsole.TabsDisjoint | app/driver/page.tsx:150-155 | no booking is on two tabs; the available tab ignores the session; an unassigned booking is never active or completed |
| DriverConsole.AvailableBadge | app/driver/page.tsx:190 | the badge counts at most every booking (its exact value is fixed by `DriverConsole.BadgeStep`) and reads 0 exactly when no booking has status 'available' |
| DriverConsole.ActiveBadge | app/driver/page.tsx:200 | the badge counts at most every booking (its exact value is fixed by `DriverConsole.BadgeStep`) and reads 0 exactly when no booking has status 'accepted' or 'picked-up' |
| DriverConsole.CompletedBadge | app/driver/page.tsx:210 | the badge counts at most every booking (its exact value is fixed by `DriverConsole.BadgeStep`) and reads 0 exactly when no booking has status 'delivered' |
| DriverConsole.BadgeStep | app/driver/page.tsx:190-210 | each badge's value is the number of bookings carrying its tokens: 0 on no bookings, and one more booking adds 1 exactly when it carries them |
| DriverConsole.BadgesZeroOnCanonical | app/driver/page.tsx:190-210 | over uppercase statuses every tab badge reads 0 |
| DriverConsole.DailyEarnings | app/driver/page.tsx:171 | the header reads 0 when no booking has status exactly 'delivered' |
| DriverConsole.DailyStep | app/driver/page.tsx:171 | one more booking adds its price to the header exactly when its status is 'delivered' |
| DriverConsole.ComputeDailyEarnings | app/driver/page.tsx:171 | the loop computes the sum of prices over bookings whose status is exactly 'delivered' |
| DriverConsole.DailyEarningsZeroOnCanonical | app/driver/page.tsx:171 | over uppercase statuses the header reads 0 |
| DriverConsole.FindById | app/driver/page.tsx:83 | the result is the first booking with the id, or none when no booking has it |
| DriverConsole.Reload | app/driver/page.tsx:56-66 | a listing replaces the deliveries, a body without a list empties them, and nothing else changes |
| DriverConsole.Accept | app/driver/page.tsx:68-91 | accept always sends ACCEPTED with the session's own driver id; on success the looked-up booking becomes the selection marked ACCEPTED and nothing else in the console changes |
| DriverConsole.Pickup | app/driver/page.tsx:93-115 | nothing is sent without a selection; otherwise PICKED_UP is sent, and on success the selection is marked PICKED_UP and the scanner closes |
| DriverConsole.Deliver | app/driver/page.tsx:117-140 | nothing is sent without a selection; otherwise DELIVERED is sent, and on success the selection is cleared and the scanner closes |
| DriverConsole.OpenScanner | app/driver/page.tsx:312-348 | the scanner opens only for a selection whose status is 'accepted' or 'picked-up' |
| DriverConsole.Confirm | app/driver/page.tsx:380-400 | with the dialog shown, confirm sends PICKED_UP exactly when the selection's status is 'accepted' and DELIVERED for every other string, always for the selected booking's id, with the console effect of pickup or delivery respectively |
| DriverConsole.ApplyEvent | app/driver/page.tsx:150-400 | only a rendered accept button or the scanner's confirm button sends a request, always ACCEPTED, PICKED_UP or DELIVERED; a click where no accept button is rendered changes nothing; every other control has exactly its handler's effect (load, tab switch, card selection, scanner open and close, confirm) |
| DriverConsole.RunEvents | app/driver/page.tsx:150-400 | a run of interactions sends at most one request per interaction, each ACCEPTED, PICKED_UP or DELIVERED |
| DriverConsole.AcceptButtonNeverShown | app/driver/page.tsx:279-289 | no card on any tab has status 'available', so the accept button is never rendered and its click changes nothing and sends nothing |
| DriverConsole.ApplyKeepsQuiet | app/driver/page.tsx:150-400 | from a state with no selection or an uppercase one and the scanner closed, every interaction keeps that and sends nothing |
| DriverConsole.ScannerNeverOpens | app/driver/page.tsx:312-348 | whatever the listings carry and whatever the driver does, the scanner dialog never opens and no request is sent |
| DriverConsole.AcceptRideCorrected | app/driver/page.tsx:279-289 | corrected: the accept button shows on PENDING cards and sends ACCEPTED for that card with the session's driver id; elsewhere nothing happens |
| DriverConsole.AvailableCardsAcceptable | app/driver/page.tsx:279-289 | corrected: every card of the available tab shows its accept button, and its booking is found in the listing |
| DriverConsole.ConfirmAfterAcceptSkipsPickup | app/driver/page.tsx:400 | behind the corrected accept and scanner buttons, confirm as written sends DELIVERED, not PICKED_UP, right after an accept |
| DriverConsole.OpenScannerCorrected | app/driver/page.tsx:312-348 | corrected: the scanner opens for ACCEPTED or PICKED_UP selections |
| DriverConsole.ConfirmCorrected | app/driver/page.tsx:400 | corrected: confirm sends PICKED_UP exactly for an ACCEPTED selection |
| DriverConsole.CorrectedRideCompletes | app/driver/page.tsx:68-140 | corrected: from any card of the available tab, accept, scan and scan again send ACCEPTED, PICKED_UP and DELIVERED in order and clear the selection |
| DriverConsole.DailyEarningsCorrectedIsFilterSum | app/driver/page.tsx:171 | corrected: the header is the same filter-then-sum over prices, with the DELIVERED token |
| DriverConsole.DailyEarningsCorrectedCountsDelivered | app/driver/page.tsx:171 | corrected: with non-negative prices, the header is at least the price of every DELIVERED booking |
| DriverConsole.DailyEarningsMissesDelivery | app/driver/page.tsx:171 | as written, a delivered booking with a positive price adds 0, while the corrected header counts it |
| DriversApi.Spread | app/api/drivers/route.ts:29 | a JSON object body contributes exactly its fields; any other body contributes none |
| DriversApi.NewDriver | app/api/drivers/route.ts:27-33 | the new driver has exactly the generated id, the request fields and the three statistics; the statistics are always 5.0/0/0; a request id overrides the generated one; other request fields are copied |
| DriversApi.Register | app/api/drivers/route.ts:23-47 | a body that is not JSON yields 400 and leaves the list unchanged; otherwise exactly one driver is appended and earlier entries stay |
| DriversApi.ListDrivers | app/api/drivers/route.ts:18-20 | listing returns the list and leaves it unchanged |
| DriversApi.RegisterAllAppends | app/api/drivers/route.ts:35 | after any run of registrations the earlier list is a prefix, one driver is added per valid body, and a listing shows the result |
| SignupApi.NewUser | app/api/auth/signup/route.ts:45-53 | the account stores the hash, not the password; an empty or absent phone is stored as none; an absent role becomes CLIENT |
| SignupApi.Signup | app/api/auth/signup/route.ts:5-79 | a missing email, password or name gives 400 (both directions); a known email gives 400 (both directions); a hash failure gives 500; every failure leaves users unchanged; success adds exactly one user with the hashed password and answers with id, email, name and role; a valid request with a new email and a successful hash succeeds exactly when the generated id is unused |
| SignupApi.SignupBody | app/api/auth/signup/route.ts:5-79 | a body that is not JSON or is null answers 500 and changes nothing; a readable body is signed up as above |
| SignupApi.SignupStoresAccount | app/api/auth/signup/route.ts:45-67 | the stored password is the hash; a falsy phone is stored as null; an absent role becomes CLIENT; the response repeats the stored public fields and no password |
| SignupApi.SignupKeepsWellFormed | app/api/auth/signup/route.ts:21-53 | sign-up keeps every user stored under its own email |
| SignupApi.SecondSignupFails | app/api/auth/signup/route.ts:21-53 | after a successful sign-up, another with the same email fails with 400 and changes nothing |

## Left out

- Rendering, layout, the map, the language selector and the translation tables. The model keeps only the state and predicates the pages compute.
- The address search and its debounce timers (`app/book/page.tsx:68-100`). These are network I/O and timers, so suggestions are inputs.
- Floating-point arithmetic. Money is exact `real`, so the IEEE rounding of `price * 0.2` is not reproduced. `parseFloat` and date parsing are opaque parameters. The bag-count input's `parseInt` is not modelled: `SetCount` takes the integer it produced, so a NaN bag count is not representable.
- The database. It is an in-memory map of users keyed by email plus a list of bookings. The joined customer, driver and payment summaries that the listing adds are not modelled. Store failures are modelled only where the handler's own data causes them: a reused email, a reused id, a booking whose customer id no user carries, a pickup time that is not a date, an unreadable store on `GET`. Type validation by the database layer (for example a `null` role) is not modelled.
- The status-changing `PATCH` route (`app/api/bookings/[id]/route.ts`). Only the request bodies the console sends are modelled. There is no server-side transition checker and no concurrent accept race. Driver statistics are never updated by delivery in the modelled code.
- Password hashing, random ids, `Date.now()` and temporary emails. These are opaque parameters. Salting, which makes the real hash non-deterministic, is not modelled.
- Concurrent requests on the module-global driver list. Requests are modelled one at a time.
- The QR-code route, the seed script, the session type declarations, and `formatDateTime`.
- The browser's required-field validation of the payment inputs on step 3. The `alert` and the error messages shown after submission are also not modelled.
- Text.ToUpper: only ASCII letters are capitalised. JavaScript's full Unicode case mapping is not modelled. Size tokens are ASCII.
- DriversApi.Spread: only a JSON object contributes fields. A JSON array or string body, which JavaScript spreads as index-keyed fields, is modelled as contributing none.
- BookingsApi.BookingRequest: fields are typed, so a non-string size or a short coordinate array is not modelled. A JSON body that is a number, string or array is not modelled either; the handler reads its fields as absent. Likewise, sign-up fields are strings or absent.

## Findings

| source | as written | input that shows it | evidently intended | confidence | as-written member | corrected member |
|---|---|---|---|---|---|---|
| app/driver/page.tsx:279-289 | a card renders its accept button only for status 'available' | any listing: the cards shown are filtered to PENDING, ACCEPTED, PICKED_UP or DELIVERED (lines 150-155), so no card qualifies and accept is never sent | show the accept button on PENDING cards of the available tab | high, not executed | DriverConsole.AcceptButtonNeverShown | DriverConsole.AcceptRideCorrected |
| app/driver/page.tsx:312-348 | the pickup and delivery scanner buttons appear only for status 'accepted' or 'picked-up' | any listing: a selection comes from a shown card or from accept or pickup, all uppercase, so the dialog never opens | show the scanner for ACCEPTED and PICKED_UP | high, not executed | DriverConsole.ScannerNeverOpens | DriverConsole.OpenScannerCorrected |
| app/driver/page.tsx:400 | confirm dispatches pickup only for status 'accepted' | latent behind the two rows above: with those buttons corrected, a ride just accepted (selection set to ACCEPTED at line 85) gets DELIVERED on its first confirm | dispatch pickup for ACCEPTED, so a ride goes ACCEPTED → PICKED_UP → DELIVERED | medium, not executed | DriverConsole.ConfirmAfterAcceptSkipsPickup | DriverConsole.CorrectedRideCompletes |
| app/driver/page.tsx:171 | daily earnings sum prices of bookings with status 'delivered' | one booking with status DELIVERED and price 26 | sum over DELIVERED bookings | medium, not executed | DriverConsole.DailyEarningsMissesDelivery | DriverConsole.DailyEarningsCorrectedCountsDelivered |

The console model follows the code as written. The corrected members sit beside it and are used only to prove the intended behaviour.

=== FILE: booking_form.dfy ===
/** The state of the three-step booking form (`app/book/page.tsx`): its own
    copy of the price table, the step navigation, the address-suggestion
    updates, and the request body built on submission. Rendering, the
    address search and its timers are outside the model; a suggestion is an
    input. */
module BookingForm {
  import opened Common
  import opened Pricing
  import BookingsApi
  import Store

  /** The form's own price table (`baggagePrices`). */
  function FormUnitPrice(size: BaggageSize): int {
    match size
    case Small => 8
    case Medium => 12
    case Large => 18
    case XLarge => 25
  }

  /** The form duplicates the shared table entry for entry. */
  lemma FormTableMatchesShared(size: BaggageSize)
    ensures FormUnitPrice(size) == UnitPrice(size)
  {
  }

  /** The four size buttons of step 2, each with the price printed on it. */
  const SizeButtons: seq<(BaggageSize, int)> :=
    [(Small, 8), (Medium, 12), (Large, 18), (XLarge, 25)]

  /** Every button shows the table's price for its size, and every size has
      exactly one button, in table order. */
  lemma SizeButtonsShowTablePrices()
    ensures forall i :: 0 <= i < |SizeButtons| ==> SizeButtons[i].1 == FormUnitPrice(SizeButtons[i].0)
    ensures |SizeButtons| == 4
    ensures forall size: BaggageSize :: Rank(size) < 4 && SizeButtons[Rank(size)].0 == size
    ensures forall i, j :: 0 <= i < j < |SizeButtons| ==> SizeButtons[i].0 != SizeButtons[j].0
  {
  }

  /** The controlled fields of the form (`BookingData`). */
  datatype FormData = FormData(
    pickupLocation: string,
    deliveryLocation: string,
    pickupCoords: Coords,
    deliveryCoords: Coords,
    baggageSize: BaggageSize,
    baggageCount: int,
    pickupTime: string,
    specialInstructions: string)

  /** The initial state: empty addresses, two Paris coordinates, one medium
      bag. */
  const InitialData: FormData := FormData(
    "", "", Coords(48.8566, 2.3522), Coords(48.8606, 2.3376),
    Medium, 1, "", "")

  /** `calculatePrice`: the form's table times the count, plus the fee of 2.
      It agrees with the shared `calculateTotalPrice` on every state, because
      both use the same table and fee. */
  function CalculatePrice(data: FormData): (p: int)
    ensures p == TotalPrice(data.baggageSize, data.baggageCount)
  {
    FormUnitPrice(data.baggageSize) * data.baggageCount + 2
  }

  /** The untouched form prices at 12 * 1 + 2 = 14. */
  lemma InitialPrice()
    ensures CalculatePrice(InitialData) == 14
  {
  }

  /** An address suggestion, with its coordinates as the text the geocoder
      returned. */
  datatype Suggestion = Suggestion(displayName: string, lat: string, lon: string)

  /** `selectPickupAddress`; `parse` stands for `parseFloat`. */
  function SelectPickup(data: FormData, s: Suggestion, parse: string -> real): (r: FormData)
    ensures r.pickupLocation == s.displayName
    ensures r.pickupCoords == Coords(parse(s.lat), parse(s.lon))
    ensures r.(pickupLocation := data.pickupLocation, pickupCoords := data.pickupCoords) == data
  {
    data.(pickupLocation := s.displayName, pickupCoords := Coords(parse(s.lat), parse(s.lon)))
  }

  /** `selectDeliveryAddress`; the mirror image of `SelectPickup`. */
  function SelectDelivery(data: FormData, s: Suggestion, parse: string -> real): (r: FormData)
    ensures r.deliveryLocation == s.displayName
    ensures r.deliveryCoords == Coords(parse(s.lat), parse(s.lon))
    ensures r.(deliveryLocation := data.deliveryLocation, deliveryCoords := data.deliveryCoords) == data
  {
    data.(deliveryLocation := s.displayName, deliveryCoords := Coords(parse(s.lat), parse(s.lon)))
  }

  /** Selecting a suggestion never changes the price. */
  lemma SelectKeepsPrice(data: FormData, s: Suggestion, parse: string -> real)
    ensures CalculatePrice(SelectPickup(data, s, parse)) == CalculatePrice(data)
    ensures CalculatePrice(SelectDelivery(data, s, parse)) == CalculatePrice(data)
  {
  }

  /** User interactions. A control only exists on the step that renders it,
      so an event for another step has no effect. */
  datatype Event =
    | TypePickup(text: string)                        // step 1
    | TypeDelivery(text: string)                      // step 1
    | ChoosePickup(s: Suggestion)                     // step 1
    | ChooseDelivery(s: Suggestion)                   // step 1
    | Continue                                        // steps 1 and 2
    | Back                                            // steps 2 and 3
    | ChooseSize(size: BaggageSize)                   // step 2
    | SetCount(count: int)                            // step 2
    | SetPickupTime(time: string)                     // step 2
    | SetInstructions(text: string)                   // step 2

  datatype FormState = FormState(step: int, data: FormData)

  const Initial: FormState := FormState(1, InitialData)

  /** Whether the step-1 continue button is enabled. */
  predicate CanLeaveStepOne(data: FormData) {
    data.pickupLocation != "" && data.deliveryLocation != ""
  }

  /** The step that `Continue` or `Back` leads to. */
  function Navigate(step: int, forward: bool, data: FormData): (next: int)
    ensures step in {1, 2, 3} ==> next in {1, 2, 3}
    ensures step == 1 ==> next == (if forward && CanLeaveStepOne(data) then 2 else 1)
    ensures step == 2 ==> next == (if forward then 3 else 1)
    ensures step == 3 ==> next == (if forward then 3 else 2)
    ensures next != step ==> (step == 1 || step == 2 || step == 3)
  {
    match (step, forward)
    case (1, true) => if CanLeaveStepOne(data) then 2 else 1
    case (2, true) => 3
    case (2, false) => 1
    case (3, false) => 2
    case _ => step
  }

  /** What the form guarantees between interactions: the step is 1, 2 or 3,
      and beyond step 1 both addresses are filled in (they can only be edited
      on step 1, which can only be left with both non-empty). */
  predicate Consistent(st: FormState) {
    && st.step in {1, 2, 3}
    && (st.step != 1 ==> CanLeaveStepOne(st.data))
  }

  /** The effect of one interaction: the address fields change only on step
      1, the bag, time and instruction fields only on step 2, the step only
      through the navigation buttons; consistency is kept. */
  function Apply(st: FormState, ev: Event, parse: string -> real): (r: FormState)
    ensures st.step != 1 ==>
      && r.data.pickupLocation == st.data.pickupLocation && r.data.pickupCoords == st.data.pickupCoords
      && r.data.deliveryLocation == st.data.deliveryLocation && r.data.deliveryCoords == st.data.deliveryCoords
    ensures st.step != 2 ==>
      && r.data.baggageSize == st.data.baggageSize && r.data.baggageCount == st.data.baggageCount
      && r.data.pickupTime == st.data.pickupTime && r.data.specialInstructions == st.data.specialInstructions
    ensures r.step != st.step ==> ev.Continue? || ev.Back?
    ensures ev.Continue? ==> r == st.(step := Navigate(st.step, true, st.data))
    ensures ev.Back? ==> r == st.(step := Navigate(st.step, false, st.data))
    ensures st.step == 1 && ev.TypePickup? ==> r == st.(data := st.data.(pickupLocation := ev.text))
    ensures st.step == 1 && ev.TypeDelivery? ==> r == st.(data := st.data.(deliveryLocation := ev.text))
    ensures st.step == 1 && ev.ChoosePickup? ==> r == st.(data := SelectPickup(st.data, ev.s, parse))
    ensures st.step == 1 && ev.ChooseDelivery? ==> r == st.(data := SelectDelivery(st.data, ev.s, parse))
    ensures st.step == 2 && ev.ChooseSize? ==> r == st.(data := st.data.(baggageSize := ev.size))
    ensures st.step == 2 && ev.SetCount? ==> r == st.(data := st.data.(baggageCount := ev.count))
    ensures st.step == 2 && ev.SetPickupTime? ==> r == st.(data := st.data.(pickupTime := ev.time))
    ensures st.step == 2 && ev.SetInstructions? ==> r == st.(data := st.data.(specialInstructions := ev.text))
    ensures Consistent(st) ==> Consistent(r)
  {
    var d := st.data;
    match ev
    case TypePickup(t) => if st.step == 1 then st.(data := d.(pickupLocation := t)) else st
    case TypeDelivery(t) => if st.step == 1 then st.(data := d.(deliveryLocation := t)) else st
    case ChoosePickup(s) => if st.step == 1 then st.(data := SelectPickup(d, s, parse)) else st
    case ChooseDelivery(s) => if st.step == 1 then st.(data := SelectDelivery(d, s, parse)) else st
    case Continue => st.(step := Navigate(st.step, true, d))
    case Back => st.(step := Navigate(st.step, false, d))
    case ChooseSize(size) => if st.step == 2 then st.(data := d.(baggageSize := size)) else st
    case SetCount(n) => if st.step == 2 then st.(data := d.(baggageCount := n)) else st
    case SetPickupTime(t) => if st.step == 2 then st.(data := d.(pickupTime := t)) else st
    case SetInstructions(t) => if st.step == 2 then st.(data := d.(specialInstructions := t)) else st
  }

  /** The state after a sequence of interactions. Every state reachable from
      a consistent one, the initial state included, is consistent. */
  function Run(st: FormState, evs: seq<Event>, parse: string -> real): (r: FormState)
    ensures Consistent(st) ==> Consistent(r)
    decreases |evs|
  {
    if |evs| == 0 then st else Run(Apply(st, evs[0], parse), evs[1..], parse)
  }

  /** The signed-in user as the session exposes it. */
  datatype SessionUser = SessionUser(id: string, name: string, phone: Option<string>)

  /** The phone used when the session has none. */
  const DefaultPhone: string := "+33 6 00 00 00 00"

  /** What pressing submit does: redirect to the login page when signed out;
      fail locally when the pickup time is not a valid date (`toISOString`
      throws, the error is shown and nothing is sent); otherwise send the
      request body. */
  datatype SubmitOutcome =
    | RedirectToLogin
    | InvalidPickupTime
    | Send(request: BookingsApi.BookingRequest)

  /** `handleSubmit`. `toIso` stands for `new Date(t).toISOString()`,
      undefined on an invalid date. */
  function Submit(session: Option<SessionUser>, data: FormData, toIso: string -> Option<string>)
    : (r: SubmitOutcome)
    ensures session.None? <==> r.RedirectToLogin?
    ensures r.Send? ==>
      && r.request.price == CalculatePrice(data) as real
      && r.request.customerId == Some(session.value.id)
      && r.request.customerName == session.value.name
      && r.request.specialInstructions == data.specialInstructions
      && r.request.pickupLocation == data.pickupLocation
      && r.request.deliveryLocation == data.deliveryLocation
      && r.request.pickupCoords == Some(data.pickupCoords)
      && r.request.deliveryCoords == Some(data.deliveryCoords)
      && r.request.baggageSize == Some(Token(data.baggageSize))
      && r.request.baggageCount == data.baggageCount
      && Some(r.request.pickupTime) == toIso(data.pickupTime)
      && r.request.customerPhone == (if Present(session.value.phone) then session.value.phone.value else DefaultPhone)
    ensures session.Some? && toIso(data.pickupTime).Some? ==> r.Send?
  {
    match session
    case None => RedirectToLogin
    case Some(user) =>
      match toIso(data.pickupTime)
      case None => InvalidPickupTime
      case Some(time) =>
        var phone := if Present(user.phone) then user.phone.value else DefaultPhone;
        Send(BookingsApi.BookingRequest(
          Some(user.id), user.name, phone,
          data.pickupLocation, Some(data.pickupCoords),
          data.deliveryLocation, Some(data.deliveryCoords),
          Some(Token(data.baggageSize)), data.baggageCount,
          data.specialInstructions, time, CalculatePrice(data) as real))
  }

  /** Step 3 is reachable: typing both addresses and pressing continue twice
      reaches the review step with those addresses and the default bags. */
  lemma ReviewStepReachable(pickup: string, delivery: string, parse: string -> real)
    requires pickup != "" && delivery != ""
    ensures Run(Initial, [TypePickup(pickup), TypeDelivery(delivery), Continue, Continue], parse)
         == FormState(3, InitialData.(pickupLocation := pickup, deliveryLocation := delivery))
  {
    var evs := [TypePickup(pickup), TypeDelivery(delivery), Continue, Continue];
    var s1 := Apply(Initial, evs[0], parse);
    var s2 := Apply(s1, evs[1], parse);
    var s3 := Apply(s2, evs[2], parse);
    var s4 := Apply(s3, evs[3], parse);
    assert s4 == FormState(3, InitialData.(pickupLocation := pickup, deliveryLocation := delivery));
    assert Run(s4, evs[4..], parse) == s4;
    assert Run(s3, evs[3..], parse) == s4 by { assert evs[3..][1..] == evs[4..]; }
    assert Run(s2, evs[2..], parse) == s4 by { assert evs[2..][1..] == evs[3..]; }
    assert Run(s1, evs[1..], parse) == s4 by { assert evs[1..][1..] == evs[2..]; }
  }

  /** Submitting from the review step of any run (reachable, by
      `ReviewStepReachable`) sends, when signed in with a valid date, and
      what it sends has non-empty addresses and the shared-table price. */
  lemma SubmitAfterRun(evs: seq<Event>, parse: string -> real, session: Option<SessionUser>,
                       toIso: string -> Option<string>)
    requires Run(Initial, evs, parse).step == 3
    ensures var d := Run(Initial, evs, parse).data;
      var r := Submit(session, d, toIso);
      && (session.Some? && toIso(d.pickupTime).Some? ==> r.Send?)
      && (r.Send? ==>
        && r.request.pickupLocation != ""
        && r.request.deliveryLocation != ""
        && r.request.price == TotalPrice(d.baggageSize, d.baggageCount) as real)
  {
  }

  /** A request built by the form always reaches the server's record
      derivation: its coordinate pairs and size are present and the customer
      id is the session's, so the booking is stored at the form's price under
      the session's user, whenever that user is stored, the booking id is
      fresh, and the store accepts the ISO text the form sent as a date. */
  lemma SubmittedRequestIsStored(db: Store.Db, session: SessionUser, data: FormData,
                                 toIso: string -> Option<string>, env: BookingsApi.Environment)
    requires toIso(data.pickupTime).Some?
    requires env.validInstant(toIso(data.pickupTime).value)
    requires session.id != "" && Store.UserIdTaken(db.users, session.id)
    requires !Store.BookingIdTaken(db.bookings, env.newBookingId)
    ensures var out := BookingsApi.Create(db, Submit(Some(session), data, toIso).request, env);
      && out.response.Created?
      && out.response.booking.price == CalculatePrice(data) as real
      && out.response.booking.customerId == session.id
      && out.db.users == db.users
  {
  }
}

=== FILE: bookings_api.dfy ===
/** The `/api/bookings` collection route: `POST` derives a booking record
    from the client's request (creating a temporary customer when none is
    given) and `GET` lists every booking newest first. */
module BookingsApi {
  import opened Common
  import opened Seqs
  import Pricing
  import opened Text
  import opened Store

  /** The decoded `POST` body. Absent coordinate pairs or an absent size make
      the handler throw (it indexes or upper-cases `undefined`). */
  datatype BookingRequest = BookingRequest(
    customerId: Option<string>,
    customerName: string,
    customerPhone: string,
    pickupLocation: string,
    pickupCoords: Option<Coords>,
    deliveryLocation: string,
    deliveryCoords: Option<Coords>,
    baggageSize: Option<string>,
    baggageCount: int,
    specialInstructions: string,
    pickupTime: string,
    price: real)

  /** What the environment supplies to one `POST`: the ids the database
      generates, the millisecond clock reading that names a temporary user
      (as its decimal text), the creation instant, the initial status the
      schema assigns (a schema default, not visible in the handler), and
      which texts `new Date(text)` turns into a valid instant (the store
      rejects an invalid one). */
  datatype Environment = Environment(
    newUserId: string,
    newBookingId: string,
    clockText: string,
    now: int,
    initialStatus: string,
    validInstant: string -> bool)

  /** `POST` outcome: 201 with the stored booking, or 400 with
      `success: false`. */
  datatype CreateResponse = Created(booking: BookingRecord) | CreateFailed {
    function Status(): int {
      if Created? then 201 else 400
    }
    predicate Success() {
      Created?
    }
  }

  /** `GET` outcome: the list, or 500 with `success: false`. */
  datatype ListResponse = Listed(bookings: seq<BookingRecord>) | ListFailed {
    function Status(): int {
      if Listed? then 200 else 500
    }
  }

  datatype CreateOutcome = CreateOutcome(db: Db, response: CreateResponse)

  /** The email of a temporary customer. */
  function TempEmail(clockText: string): string {
    "temp_" + clockText + "@bagexpress.com"
  }

  /** The temporary customer created for an anonymous booking. */
  function TempUser(req: BookingRequest, env: Environment): (u: User)
    ensures u.email == TempEmail(env.clockText) && u.id == env.newUserId
    ensures u.role == "CLIENT" && u.phone == Some(req.customerPhone) && u.name == req.customerName
  {
    User(env.newUserId, TempEmail(env.clockText), "temp", req.customerName,
         Some(req.customerPhone), "CLIENT")
  }

  /** The users after the customer-resolution step, with the customer id to
      use, or `None` when creating the temporary user fails (its email or
      id is already taken). */
  function ResolveCustomer(users: map<string, User>, req: BookingRequest, env: Environment)
    : (r: Option<(map<string, User>, string)>)
    ensures Present(req.customerId) ==> r == Some((users, req.customerId.value))
    ensures !Present(req.customerId) && r.Some? ==>
      && TempEmail(env.clockText) !in users
      && r.value.0 == users[TempEmail(env.clockText) := TempUser(req, env)]
      && r.value.1 == env.newUserId
  {
    if Present(req.customerId) then Some((users, req.customerId.value))
    else
      var email := TempEmail(env.clockText);
      if email in users || UserIdTaken(users, env.newUserId) then None
      else Some((users[email := TempUser(req, env)], env.newUserId))
  }

  /** The record `POST` stores, once the customer id is known. */
  function Derive(req: BookingRequest, env: Environment, customerId: string): (b: BookingRecord)
    requires req.pickupCoords.Some? && req.deliveryCoords.Some? && req.baggageSize.Some?
    ensures b.commission + b.driverEarnings == b.price == req.price
    ensures b.commission == Pricing.Commission(req.price)
    ensures b.driverEarnings == Pricing.DriverEarnings(req.price)
  {
    BookingRecord(
      env.newBookingId,
      customerId,
      req.customerName,
      req.customerPhone,
      req.pickupLocation,
      req.pickupCoords.value.lat,
      req.pickupCoords.value.lon,
      req.deliveryLocation,
      req.deliveryCoords.value.lat,
      req.deliveryCoords.value.lon,
      ToUpper(req.baggageSize.value),
      req.baggageCount,
      req.pickupTime,
      req.price,
      req.price * 0.2,
      req.price * 0.8,
      env.initialStatus,
      None,
      env.now)
  }

  /** `POST /api/bookings`. The temporary customer is created before the
      booking is built, so a request the booking step rejects (missing
      coordinates or size, a customer id no user carries, a pickup time
      that is not a date) fails with 400 but still leaves the temporary
      user behind. */
  function Create(db: Db, req: BookingRequest, env: Environment): (out: CreateOutcome)
    ensures out.response.Created? ==>
      && out.db.bookings == db.bookings + [out.response.booking]
      && out.response.booking.price == req.price
      && out.response.booking.commission == req.price * 0.2
      && out.response.booking.driverEarnings == req.price * 0.8
    ensures out.response.Created? ==> UserIdTaken(out.db.users, out.response.booking.customerId)
    ensures out.response.CreateFailed? ==> out.db.bookings == db.bookings
    ensures Present(req.customerId) ==> out.db.users == db.users
    ensures !Present(req.customerId) ==>
      out.db.users == db.users ||
      out.db.users == db.users[TempEmail(env.clockText) := TempUser(req, env)]
    ensures ResolveCustomer(db.users, req, env).Some? ==>
      out.db.users == ResolveCustomer(db.users, req, env).value.0
  {
    match ResolveCustomer(db.users, req, env)
    case None => CreateOutcome(db, CreateFailed)
    case Some((users, customerId)) =>
      if req.pickupCoords.None? || req.deliveryCoords.None? || req.baggageSize.None? then
        CreateOutcome(db.(users := users), CreateFailed)
      else if !UserIdTaken(users, customerId) || !env.validInstant(req.pickupTime) then
        CreateOutcome(db.(users := users), CreateFailed)
      else if BookingIdTaken(db.bookings, env.newBookingId) then
        CreateOutcome(db.(users := users), CreateFailed)
      else
        var b := Derive(req, env, customerId);
        CreateOutcome(Db(users, db.bookings + [b]), Created(b))
  }

  /** The whole handler on the raw body: `None` is a body that is not JSON
      or is `null`, which throws on the first field read, before any user
      is created, and answers 400 with nothing stored. */
  function CreateBody(db: Db, body: Option<BookingRequest>, env: Environment): (out: CreateOutcome)
    ensures body.None? ==> out.db == db && out.response.Status() == 400
    ensures body.Some? ==> out == Create(db, body.value, env)
  {
    match body
    case None => CreateOutcome(db, CreateFailed)
    case Some(req) => Create(db, req, env)
  }

  /** The derived record: the client's price is stored verbatim (the server
      does not recompute it) and split 20/80 into commission and driver
      earnings; the size is the upper-cased token; the latitude and
      longitude columns are the two halves of the submitted pairs; the
      name, phone, both addresses, bag count and pickup time are copied; the
      status is the schema's initial one and no driver is assigned yet. */
  lemma CreateDerivesRecord(db: Db, req: BookingRequest, env: Environment)
    requires Create(db, req, env).response.Created?
    ensures var b := Create(db, req, env).response.booking;
      && b.price == req.price
      && b.commission + b.driverEarnings == req.price
      && b.baggageSize == ToUpper(req.baggageSize.value)
      && b.pickupLatitude == req.pickupCoords.value.lat
      && b.pickupLongitude == req.pickupCoords.value.lon
      && b.deliveryLatitude == req.deliveryCoords.value.lat
      && b.deliveryLongitude == req.deliveryCoords.value.lon
      && b.driverId == None
      && b.createdAt == env.now
      && b.id == env.newBookingId
      && b.customerName == req.customerName
      && b.customerPhone == req.customerPhone
      && b.pickupLocation == req.pickupLocation
      && b.deliveryLocation == req.deliveryLocation
      && b.baggageCount == req.baggageCount
      && b.pickupTime == req.pickupTime
      && b.status == env.initialStatus
  {
  }

  /** Exactly when it succeeds: both coordinate pairs and the size are
      present, the pickup time is a valid date, the booking id is fresh, and
      either the given customer id belongs to a stored user or the temporary
      user can be created. */
  lemma CreateSucceedsIff(db: Db, req: BookingRequest, env: Environment)
    ensures Create(db, req, env).response.Created? <==>
      && req.pickupCoords.Some? && req.deliveryCoords.Some? && req.baggageSize.Some?
      && env.validInstant(req.pickupTime)
      && !BookingIdTaken(db.bookings, env.newBookingId)
      && (if Present(req.customerId) then UserIdTaken(db.users, req.customerId.value)
          else TempEmail(env.clockText) !in db.users && !UserIdTaken(db.users, env.newUserId))
  {
    if !Present(req.customerId) && TempEmail(env.clockText) !in db.users {
      var users := db.users[TempEmail(env.clockText) := TempUser(req, env)];
      assert users[TempEmail(env.clockText)].id == env.newUserId;
    }
  }

  /** A store whose bookings all point at stored users, each user filed
      under its own email, stays that way. */
  lemma CreateKeepsWellFormed(db: Db, req: BookingRequest, env: Environment)
    requires WellFormed(db)
    ensures WellFormed(Create(db, req, env).db)
  {
    var out := Create(db, req, env);
    forall i | 0 <= i < |db.bookings|
      ensures UserIdTaken(out.db.users, db.bookings[i].customerId)
    {
      assert UserIdTaken(db.users, db.bookings[i].customerId);
      var e :| e in db.users && db.users[e].id == db.bookings[i].customerId;
      if !Present(req.customerId) && out.db.users != db.users {
        assert e != TempEmail(env.clockText);
        assert out.db.users[e] == db.users[e];
      }
    }
  }

  /** Customer resolution: with a customer id, that id is used and no user is
      created; without one (absent or empty), a successful booking belongs to
      exactly one new CLIENT user created for it. */
  lemma CreateResolvesCustomer(db: Db, req: BookingRequest, env: Environment)
    requires Create(db, req, env).response.Created?
    ensures var out := Create(db, req, env);
      if Present(req.customerId) then
        && out.response.booking.customerId == req.customerId.value
        && out.db.users == db.users
      else
        && out.response.booking.customerId == env.newUserId
        && TempEmail(env.clockText) !in db.users
        && out.db.users == db.users[TempEmail(env.clockText) := TempUser(req, env)]
        && |out.db.users| == |db.users| + 1
        && out.db.users[TempEmail(env.clockText)].role == "CLIENT"
        && out.db.users[TempEmail(env.clockText)].id == env.newUserId
  {
  }

  /** The special instructions the client sends are not stored: two requests
      that differ only there have the same effect. */
  lemma CreateIgnoresInstructions(db: Db, req: BookingRequest, env: Environment, other: string)
    ensures Create(db, req.(specialInstructions := other), env) == Create(db, req, env)
  {
  }

  /** The head of a newest-first list is at least as new as any element. */
  lemma HeadIsNewest(s: seq<BookingRecord>)
    requires SortedDescBy(s, CreatedAt)
    requires |s| > 0
    ensures forall x :: x in s ==> x.createdAt <= s[0].createdAt
  {
  }

  /** Prepending an element at least as new as everything keeps a list
      newest-first. */
  lemma PrependNewest(h: BookingRecord, t: seq<BookingRecord>)
    requires SortedDescBy(t, CreatedAt)
    requires forall x :: x in t ==> x.createdAt <= h.createdAt
    ensures SortedDescBy([h] + t, CreatedAt)
  {
  }

  /** Inserts a booking into a newest-first list. */
  function InsertNewestFirst(b: BookingRecord, s: seq<BookingRecord>): (r: seq<BookingRecord>)
    requires SortedDescBy(s, CreatedAt)
    ensures SortedDescBy(r, CreatedAt)
    ensures multiset(r) == multiset(s) + multiset{b}
    ensures |r| == |s| + 1
  {
    if |s| == 0 then [b]
    else if b.createdAt >= s[0].createdAt then
      HeadIsNewest(s);
      PrependNewest(b, s);
      [b] + s
    else
      assert s == [s[0]] + s[1..];
      var rest := InsertNewestFirst(b, s[1..]);
      HeadIsNewest(s);
      forall x | x in rest
        ensures x.createdAt <= s[0].createdAt
      {
        assert x in multiset(rest);
        assert x in multiset(s[1..]) || x == b;
      }
      PrependNewest(s[0], rest);
      [s[0]] + rest
  }

  /** Orders bookings by creation instant, newest first (`orderBy:
      { createdAt: 'desc' }`). */
  function SortNewestFirst(s: seq<BookingRecord>): (r: seq<BookingRecord>)
    ensures SortedDescBy(r, CreatedAt)
    ensures multiset(r) == multiset(s)
    ensures |r| == |s|
  {
    if |s| == 0 then []
    else
      assert s == [s[0]] + s[1..];
      InsertNewestFirst(s[0], SortNewestFirst(s[1..]))
  }

  /** `GET /api/bookings`: every stored booking, newest first; when the
      store cannot be read, 500 with `success: false`. The store is never
      changed by a listing. */
  function List(db: Db, reachable: bool): (r: ListResponse)
    ensures r.Listed? <==> reachable
    ensures r.Listed? ==> SortedDescBy(r.bookings, CreatedAt)
    ensures r.Listed? ==> multiset(r.bookings) == multiset(db.bookings)
    ensures r.ListFailed? ==> r.Status() == 500
  {
    if reachable then Listed(SortNewestFirst(db.bookings)) else ListFailed
  }
}

=== FILE: common.dfy ===
/** Value types shared by every part of the model: optional values, the JSON
    values that request bodies carry, the truthiness test that the route
    handlers apply to them, and coordinate pairs. */
module Common {

  /** A value that may be absent (`undefined` or `null` in the source). */
  datatype Option<+T> = None | Some(value: T) {
    function GetOr(default: T): T {
      match this
      case Some(v) => v
      case None => default
    }
  }

  /** A decoded JSON value. Numbers are exact reals; NaN and the infinities
      cannot be written in JSON and have no constructor. */
  datatype Json =
    | JNull
    | JBool(b: bool)
    | JNum(n: real)
    | JStr(s: string)
    | JArr(items: seq<Json>)
    | JObj(fields: map<string, Json>)

  /** Truthiness of an optional string: absent and empty are falsy. */
  predicate Present(o: Option<string>) {
    o.Some? && o.value != ""
  }

  /** A latitude/longitude pair, kept opaque (the source never computes with
      coordinates, it only stores and forwards them). */
  datatype Coords = Coords(lat: real, lon: real)
}

=== FILE: dashboard.dfy ===
/** The customer dashboard (`app/dashboard/page.tsx`): it keeps the signed-in
    customer's bookings, splits them into an "in progress" tab and a
    "history" tab by status, and labels and colours each status. */
module Dashboard {
  import opened Common
  import opened Seqs
  import opened Store
  import BookingsApi

  /** `data.bookings?.filter(b => b.customerId === userId) || []`: the
      customer's own bookings in listing order, or nothing when the response
      carries no list. */
  function CustomerBookings(fetched: Option<seq<BookingRecord>>, userId: string): (r: seq<BookingRecord>)
    ensures fetched.None? ==> r == []
    ensures forall b :: b in r <==> fetched.Some? && b in fetched.value && b.customerId == userId
    ensures fetched.Some? ==>
              forall b :: multiset(r)[b] == if b.customerId == userId then multiset(fetched.value)[b] else 0
    ensures fetched.Some? ==> IsSubsequence(r, fetched.value)
  {
    match fetched
    case None => []
    case Some(list) => Filter(list, (b: BookingRecord) => b.customerId == userId)
  }

  /** A finished booking: delivered or cancelled. */
  predicate IsFinished(b: BookingRecord) {
    b.status == "DELIVERED" || b.status == "CANCELLED"
  }

  /** Any other status, known or not, counts as in progress. */
  predicate IsInProgress(b: BookingRecord) {
    b.status != "DELIVERED" && b.status != "CANCELLED"
  }

  /** `activeBookings`. */
  function ActiveBookings(bookings: seq<BookingRecord>): (r: seq<BookingRecord>)
    ensures forall b :: b in r <==> b in bookings && !IsFinished(b)
    ensures forall b :: multiset(r)[b] == if IsFinished(b) then 0 else multiset(bookings)[b]
    ensures IsSubsequence(r, bookings)
  {
    Filter(bookings, IsInProgress)
  }

  /** `historyBookings`. */
  function HistoryBookings(bookings: seq<BookingRecord>): (r: seq<BookingRecord>)
    ensures forall b :: b in r <==> b in bookings && b.status in {"DELIVERED", "CANCELLED"}
    ensures forall b :: multiset(r)[b] == if IsFinished(b) then multiset(bookings)[b] else 0
    ensures IsSubsequence(r, bookings)
  {
    Filter(bookings, IsFinished)
  }

  /** The two tabs partition the customer's bookings: no booking is in both,
      the tab counts add up to the total, and together they hold every
      booking exactly as often as the list does. */
  lemma TabsPartition(bookings: seq<BookingRecord>)
    ensures forall b :: b in bookings ==> (b in ActiveBookings(bookings) <==> b !in HistoryBookings(bookings))
    ensures |ActiveBookings(bookings)| + |HistoryBookings(bookings)| == |bookings|
    ensures multiset(ActiveBookings(bookings)) + multiset(HistoryBookings(bookings)) == multiset(bookings)
  {
    FilterPartition(bookings, IsFinished, IsInProgress);
  }

  /** Both tabs of a dashboard loaded from the listing route are newest
      first, like the listing itself. */
  lemma TabsNewestFirst(db: Db, userId: string)
    ensures var mine := CustomerBookings(Some(BookingsApi.List(db, true).bookings), userId);
      && SortedDescBy(ActiveBookings(mine), CreatedAt)
      && SortedDescBy(HistoryBookings(mine), CreatedAt)
  {
    var all := BookingsApi.List(db, true).bookings;
    var mine := CustomerBookings(Some(all), userId);
    FilterKeepsSortedDesc(all, (b: BookingRecord) => b.customerId == userId, CreatedAt);
    FilterKeepsSortedDesc(mine, IsInProgress, CreatedAt);
    FilterKeepsSortedDesc(mine, IsFinished, CreatedAt);
  }

  const GreyBadge: string := "bg-gray-100 text-gray-800"

  /** `getStatusColor`: the grey default is used exactly for the strings
      that are not a known status. */
  function StatusColor(status: string): (c: string)
    ensures c == GreyBadge <==> status !in CanonicalStatuses
  {
    match status
    case "PENDING" => "bg-yellow-100 text-yellow-800"
    case "ACCEPTED" => "bg-blue-100 text-blue-800"
    case "PICKED_UP" => "bg-purple-100 text-purple-800"
    case "DELIVERED" => "bg-green-100 text-green-800"
    case "CANCELLED" => "bg-red-100 text-red-800"
    case _ => GreyBadge
  }

  /** Distinct known statuses get distinct colours. */
  lemma StatusColorsDistinguish(s: string, t: string)
    ensures s in CanonicalStatuses && t in CanonicalStatuses && s != t ==> StatusColor(s) != StatusColor(t)
  {
  }

  /** `getStatusText`: a status is shown as itself exactly when it is not
      one of the five known tokens. */
  function StatusText(status: string): (shown: string)
    ensures shown == status <==> status !in CanonicalStatuses
  {
    match status
    case "PENDING" => "En attente"
    case "ACCEPTED" => "Acceptée"
    case "PICKED_UP" => "Récupérée"
    case "DELIVERED" => "Livrée"
    case "CANCELLED" => "Annulée"
    case _ => status
  }

  /** The five known tokens get five different labels. */
  lemma StatusLabelsDistinguish(s: string, t: string)
    ensures s in CanonicalStatuses && t in CanonicalStatuses && s != t ==> StatusText(s) != StatusText(t)
  {
  }
}

=== FILE: driver_console.dfy ===
/** The driver console (`app/driver/page.tsx`): three tabs over the booking
    listing, tab badges, the daily-earnings header, and the accept / pickup /
    delivery actions with the status each one sends. Requests are values the
    model returns; whether the server accepted one is an input. */
module DriverConsole {
  import opened Common
  import opened Seqs
  import opened Store

  datatype Tab = AvailableTab | ActiveTab | CompletedTab

  /** `d.driverId === session?.user.driverId`. A booking without a driver
      holds `null` and a session without a driver profile holds `undefined`;
      strict equality tells them apart, so only two present, equal ids
      match. */
  predicate SameDriver(bookingDriver: Option<string>, sessionDriver: Option<string>) {
    bookingDriver.Some? && sessionDriver.Some? && bookingDriver.value == sessionDriver.value
  }

  /** The predicate of `filteredDeliveries` for one tab. */
  predicate InTab(tab: Tab, d: BookingRecord, sessionDriver: Option<string>) {
    match tab
    case AvailableTab => d.status == "PENDING"
    case ActiveTab => (d.status == "ACCEPTED" || d.status == "PICKED_UP") && SameDriver(d.driverId, sessionDriver)
    case CompletedTab => d.status == "DELIVERED" && SameDriver(d.driverId, sessionDriver)
  }

  /** `filteredDeliveries`: the bookings shown on a tab, in listing order. */
  function TabDeliveries(deliveries: seq<BookingRecord>, tab: Tab, sessionDriver: Option<string>)
    : (r: seq<BookingRecord>)
    ensures tab == AvailableTab ==> forall d :: d in r <==> d in deliveries && d.status == "PENDING"
    ensures tab == ActiveTab ==> forall d :: d in r <==>
      d in deliveries && d.status in {"ACCEPTED", "PICKED_UP"} && d.driverId.Some? && d.driverId == sessionDriver
    ensures tab == CompletedTab ==> forall d :: d in r <==>
      d in deliveries && d.status == "DELIVERED" && d.driverId.Some? && d.driverId == sessionDriver
    ensures forall d :: multiset(r)[d] == if InTab(tab, d, sessionDriver) then multiset(deliveries)[d] else 0
    ensures IsSubsequence(r, deliveries)
  {
    Filter(deliveries, (d: BookingRecord) => InTab(tab, d, sessionDriver))
  }

  /** No booking is on two tabs; the available tab does not depend on who is
      signed in; a booking without a driver is never on the active or
      completed tab. */
  lemma TabsDisjoint(d: BookingRecord, s: Option<string>, s': Option<string>, t: Tab, u: Tab)
    ensures InTab(t, d, s) && InTab(u, d, s) ==> t == u
    ensures InTab(AvailableTab, d, s) == InTab(AvailableTab, d, s')
    ensures d.driverId.None? ==> !InTab(ActiveTab, d, s) && !InTab(CompletedTab, d, s)
  {
  }


  /** The three tab badges, which test lowercase and hyphenated tokens: each
      counts some of the bookings, and reads 0 exactly when no booking
      carries its tokens. */
  function AvailableBadge(deliveries: seq<BookingRecord>): (n: nat)
    ensures n <= |deliveries|
    ensures n == 0 <==> forall i :: 0 <= i < |deliveries| ==> deliveries[i].status != "available"
  {
    Count(deliveries, (d: BookingRecord) => d.status == "available")
  }

  function ActiveBadge(deliveries: seq<BookingRecord>): (n: nat)
    ensures n <= |deliveries|
    ensures n == 0 <==> forall i :: 0 <= i < |deliveries| ==> deliveries[i].status !in {"accepted", "picked-up"}
  {
    Count(deliveries, (d: BookingRecord) => d.status == "accepted" || d.status == "picked-up")
  }

  function CompletedBadge(deliveries: seq<BookingRecord>): (n: nat)
    ensures n <= |deliveries|
    ensures n == 0 <==> forall i :: 0 <= i < |deliveries| ==> deliveries[i].status != "delivered"
  {
    Count(deliveries, (d: BookingRecord) => d.status == "delivered")
  }

  /** Each badge is the number of bookings carrying its tokens: no bookings
      read 0, and one more booking adds 1 exactly when it carries them. */
  lemma BadgeStep(prefix: seq<BookingRecord>, d: BookingRecord)
    ensures AvailableBadge([]) == 0 && ActiveBadge([]) == 0 && CompletedBadge([]) == 0
    ensures AvailableBadge(prefix + [d]) == AvailableBadge(prefix) + (if d.status == "available" then 1 else 0)
    ensures ActiveBadge(prefix + [d]) ==
      ActiveBadge(prefix) + (if d.status == "accepted" || d.status == "picked-up" then 1 else 0)
    ensures CompletedBadge(prefix + [d]) == CompletedBadge(prefix) + (if d.status == "delivered" then 1 else 0)
  {
    CountSnoc(prefix, d, (d: BookingRecord) => d.status == "available");
    CountSnoc(prefix, d, (d: BookingRecord) => d.status == "accepted" || d.status == "picked-up");
    CountSnoc(prefix, d, (d: BookingRecord) => d.status == "delivered");
  }

  /** Over bookings that carry the uppercase tokens, every badge reads 0. */
  lemma BadgesZeroOnCanonical(deliveries: seq<BookingRecord>)
    requires AllCanonical(deliveries)
    ensures AvailableBadge(deliveries) == 0
    ensures ActiveBadge(deliveries) == 0
    ensures CompletedBadge(deliveries) == 0
  {
    forall i | 0 <= i < |deliveries|
      ensures deliveries[i].status !in {"available", "accepted", "picked-up", "delivered"}
    {
      assert deliveries[i].status in CanonicalStatuses;
    }
  }

  /** The price of a booking. */
  function Price(d: BookingRecord): real {
    d.price
  }

  predicate LowercaseDelivered(d: BookingRecord) {
    d.status == "delivered"
  }

  /** The header's daily earnings: the sum of the prices of the bookings whose
      status is exactly `'delivered'`. */
  function DailyEarnings(deliveries: seq<BookingRecord>): (e: real)
    ensures (forall i :: 0 <= i < |deliveries| ==> deliveries[i].status != "delivered") ==> e == 0.0
  {
    var f := Filter(deliveries, LowercaseDelivered);
    assert |f| > 0 ==> f[0] in deliveries;
    SumBy(f, Price)
  }

  /** Appending one booking adds its price to the header exactly when its
      status is `'delivered'`. */
  lemma DailyStep(prefix: seq<BookingRecord>, d: BookingRecord)
    ensures DailyEarnings(prefix + [d]) ==
      DailyEarnings(prefix) + (if d.status == "delivered" then d.price else 0.0)
  {
    FilterAppend(prefix, [d], LowercaseDelivered);
    if d.status == "delivered" {
      assert Filter([d], LowercaseDelivered) == [d];
      SumBySnoc(Filter(prefix, LowercaseDelivered), d, Price);
    } else {
      assert Filter([d], LowercaseDelivered) == [];
      assert Filter(prefix, LowercaseDelivered) + [] == Filter(prefix, LowercaseDelivered);
    }
  }

  /** The `filter(...).reduce(...)` loop that computes the header. */
  method ComputeDailyEarnings(deliveries: seq<BookingRecord>) returns (total: real)
    ensures total == DailyEarnings(deliveries)
  {
    total := 0.0;
    var i := 0;
    DailyPrefix(deliveries, 0);
    while i < |deliveries|
      invariant 0 <= i <= |deliveries|
      invariant total == DailyEarnings(deliveries[..i])
    {
      DailyPrefix(deliveries, i);
      if deliveries[i].status == "delivered" {
        total := total + deliveries[i].price;
      }
      i := i + 1;
    }
    assert deliveries[..i] == deliveries;
  }

  /** `DailyStep` on the prefixes of one list, as the loop walks it. */
  lemma DailyPrefix(deliveries: seq<BookingRecord>, i: nat)
    requires i <= |deliveries|
    ensures i == 0 ==> DailyEarnings(deliveries[..i]) == 0.0
    ensures i < |deliveries| ==>
      DailyEarnings(deliveries[..i + 1]) ==
      DailyEarnings(deliveries[..i]) + (if deliveries[i].status == "delivered" then deliveries[i].price else 0.0)
  {
    if i < |deliveries| {
      assert deliveries[..i + 1] == deliveries[..i] + [deliveries[i]];
      DailyStep(deliveries[..i], deliveries[i]);
    }
  }

  /** Over bookings that carry the uppercase tokens the header reads 0,
      whatever was delivered. */
  lemma DailyEarningsZeroOnCanonical(deliveries: seq<BookingRecord>)
    requires AllCanonical(deliveries)
    ensures DailyEarnings(deliveries) == 0.0
  {
  }

  /** A `PATCH /api/bookings/{id}` body the console sends. */
  datatype Patch = Patch(bookingId: string, status: string, driverId: Option<string>)

  /** The console's state: the last listing, the selected booking, whether
      the scanner dialog is open, the current tab, and the signed-in
      driver's profile id. */
  datatype Console = Console(
    deliveries: seq<BookingRecord>,
    selected: Option<BookingRecord>,
    scannerOpen: bool,
    tab: Tab,
    driver: Option<string>)

  /** The state after an action, and the request it sent, if any. */
  datatype Step = Step(console: Console, sent: Option<Patch>)

  /** `deliveries.find(d => d.id === id)`: the first booking with that id. */
  function FindById(s: seq<BookingRecord>, id: string): (r: Option<BookingRecord>)
    ensures r.Some? ==> r.value in s && r.value.id == id
    ensures r.None? ==> forall i :: 0 <= i < |s| ==> s[i].id != id
    ensures r.Some? ==> exists k :: (0 <= k < |s| && s[k] == r.value &&
                                     forall j :: 0 <= j < k ==> s[j].id != id)
  {
    if |s| == 0 then None
    else if s[0].id == id then Some(s[0])
    else
      var r := FindById(s[1..], id);
      if r.Some? then
        var k :| 0 <= k < |s[1..]| && s[1..][k] == r.value && forall j :: 0 <= j < k ==> s[1..][j].id != id;
        assert s[k + 1] == r.value;
        r
      else r
  }

  /** `setDeliveries(data.bookings || [])`: a response without a list (the
      listing route's 500 body) empties the console. */
  function Reload(c: Console, body: Option<seq<BookingRecord>>): (r: Console)
    ensures r.deliveries == (if body.Some? then body.value else [])
    ensures r.(deliveries := c.deliveries) == c
  {
    c.(deliveries := body.GetOr([]))
  }

  /** `handleAcceptDelivery`: always sends `ACCEPTED` with the session's own
      driver id; once the server accepts, the booking (looked up in the list
      as it was before the request) becomes the selection, marked
      `ACCEPTED`. */
  function Accept(c: Console, deliveryId: string, ok: bool): (r: Step)
    ensures r.sent == Some(Patch(deliveryId, "ACCEPTED", c.driver))
    ensures r.console.deliveries == c.deliveries && r.console.scannerOpen == c.scannerOpen
    ensures ok && FindById(c.deliveries, deliveryId).Some? ==>
      r.console == c.(selected := Some(FindById(c.deliveries, deliveryId).value.(status := "ACCEPTED")))
    ensures !ok || FindById(c.deliveries, deliveryId).None? ==> r.console == c
  {
    var sent := Some(Patch(deliveryId, "ACCEPTED", c.driver));
    if ok then
      match FindById(c.deliveries, deliveryId)
      case Some(d) => Step(c.(selected := Some(d.(status := "ACCEPTED"))), sent)
      case None => Step(c, sent)
    else Step(c, sent)
  }

  /** `handlePickup`: without a selection nothing is sent; otherwise
      `PICKED_UP` is sent for the selection, and once accepted the selection
      is marked `PICKED_UP` and the scanner closes. */
  function Pickup(c: Console, ok: bool): (r: Step)
    ensures c.selected.None? ==> r == Step(c, None)
    ensures c.selected.Some? ==> r.sent == Some(Patch(c.selected.value.id, "PICKED_UP", None))
    ensures c.selected.Some? && ok ==>
      r.console == c.(selected := Some(c.selected.value.(status := "PICKED_UP")), scannerOpen := false)
    ensures !ok ==> r.console == c
  {
    match c.selected
    case None => Step(c, None)
    case Some(d) =>
      var sent := Some(Patch(d.id, "PICKED_UP", None));
      if ok then Step(c.(selected := Some(d.(status := "PICKED_UP")), scannerOpen := false), sent)
      else Step(c, sent)
  }

  /** `handleDelivery`: without a selection nothing is sent; otherwise
      `DELIVERED` is sent for the selection, and once accepted the scanner
      closes and the selection is cleared. */
  function Deliver(c: Console, ok: bool): (r: Step)
    ensures c.selected.None? ==> r == Step(c, None)
    ensures c.selected.Some? ==> r.sent == Some(Patch(c.selected.value.id, "DELIVERED", None))
    ensures c.selected.Some? && ok ==> r.console == c.(selected := None, scannerOpen := false)
    ensures !ok ==> r.console == c
  {
    match c.selected
    case None => Step(c, None)
    case Some(d) =>
      var sent := Some(Patch(d.id, "DELIVERED", None));
      if ok then Step(c.(selected := None, scannerOpen := false), sent)
      else Step(c, sent)
  }

  /** The scanner buttons of the details panel exist only while the
      selection's status is `'accepted'` or `'picked-up'`. */
  function OpenScanner(c: Console): (r: Console)
    ensures r.scannerOpen <==>
              (c.scannerOpen || (c.selected.Some? && c.selected.value.status in {"accepted", "picked-up"}))
    ensures r.(scannerOpen := c.scannerOpen) == c
  {
    if c.selected.Some? && (c.selected.value.status == "accepted" || c.selected.value.status == "picked-up")
    then c.(scannerOpen := true)
    else c
  }

  /** The scanner dialog's confirm button: with the dialog shown, pickup when
      the selection's status is exactly `'accepted'`, delivery for every
      other string; without the dialog there is no button. */
  function Confirm(c: Console, ok: bool): (r: Step)
    ensures !(c.scannerOpen && c.selected.Some?) ==> r == Step(c, None)
    ensures c.scannerOpen && c.selected.Some? ==>
      (r.sent.Some? && r.sent.value.status == "PICKED_UP" <==> c.selected.value.status == "accepted")
    ensures c.scannerOpen && c.selected.Some? ==>
      (r.sent.Some? && r.sent.value.status == "DELIVERED" <==> c.selected.value.status != "accepted")
    ensures c.scannerOpen && c.selected.Some? ==>
      r.sent.Some? && r.sent.value.bookingId == c.selected.value.id
    ensures c.scannerOpen && c.selected.Some? ==>
      r.console == (if c.selected.value.status == "accepted" then Pickup(c, ok) else Deliver(c, ok)).console
  {
    if !(c.scannerOpen && c.selected.Some?) then Step(c, None)
    else if c.selected.value.status == "accepted" then Pickup(c, ok)
    else Deliver(c, ok)
  }

  /** The cards of the current tab. */
  function Shown(c: Console): seq<BookingRecord> {
    TabDeliveries(c.deliveries, c.tab, c.driver)
  }

  /** Interactions with the console. `Choose(i)` clicks the i-th card of the
      current tab and `AcceptRide(i, ok)` that card's accept button. */
  datatype Event =
    | Loaded(body: Option<seq<BookingRecord>>)
    | SwitchTab(tab: Tab)
    | Choose(index: nat)
    | AcceptRide(index: nat, ok: bool)
    | ScanButton
    | CloseScanner
    | ConfirmScan(ok: bool)

  /** A card renders its accept button only while its status is
      `'available'`. */
  predicate AcceptShown(c: Console, i: nat) {
    i < |Shown(c)| && Shown(c)[i].status == "available"
  }

  /** One interaction: the new state and the request it sent. A click on a
      button the page does not render changes nothing and sends nothing;
      only the accept button and the scanner's confirm button send. */
  function ApplyEvent(c: Console, ev: Event): (r: Step)
    ensures r.sent.Some? ==>
      (ev.AcceptRide? && AcceptShown(c, ev.index)) || (ev.ConfirmScan? && c.scannerOpen && c.selected.Some?)
    ensures r.sent.Some? ==> r.sent.value.status in {"ACCEPTED", "PICKED_UP", "DELIVERED"}
    ensures ev.AcceptRide? && !AcceptShown(c, ev.index) ==> r == Step(c, None)
    ensures ev.AcceptRide? && AcceptShown(c, ev.index) ==> r == Accept(c, Shown(c)[ev.index].id, ev.ok)
    ensures ev.Loaded? ==> r == Step(Reload(c, ev.body), None)
    ensures ev.SwitchTab? ==> r == Step(c.(tab := ev.tab), None)
    ensures ev.Choose? ==>
      r == Step(if ev.index < |Shown(c)| then c.(selected := Some(Shown(c)[ev.index])) else c, None)
    ensures ev.ScanButton? ==> r == Step(OpenScanner(c), None)
    ensures ev.CloseScanner? ==> r == Step(c.(scannerOpen := false), None)
    ensures ev.ConfirmScan? ==> r == Confirm(c, ev.ok)
  {
    match ev
    case Loaded(body) => Step(Reload(c, body), None)
    case SwitchTab(t) => Step(c.(tab := t), None)
    case Choose(i) =>
      var shown := Shown(c);
      Step(if i < |shown| then c.(selected := Some(shown[i])) else c, None)
    case AcceptRide(i, ok) =>
      if AcceptShown(c, i) then Accept(c, Shown(c)[i].id, ok) else Step(c, None)
    case ScanButton => Step(OpenScanner(c), None)
    case CloseScanner => Step(c.(scannerOpen := false), None)
    case ConfirmScan(ok) => Confirm(c, ok)
  }

  /** The state after a sequence of interactions and every request sent on
      the way, in order. */
  datatype Trace = Trace(console: Console, requests: seq<Patch>)

  function RunEvents(c: Console, evs: seq<Event>): (r: Trace)
    ensures |r.requests| <= |evs|
    ensures forall i :: 0 <= i < |r.requests| ==> r.requests[i].status in {"ACCEPTED", "PICKED_UP", "DELIVERED"}
    decreases |evs|
  {
    if |evs| == 0 then Trace(c, [])
    else
      var step := ApplyEvent(c, evs[0]);
      var rest := RunEvents(step.console, evs[1..]);
      Trace(rest.console, (if step.sent.Some? then [step.sent.value] else []) + rest.requests)
  }

  /** No card of any tab carries `'available'`: the accept button is never
      rendered, and clicking where it would be changes nothing. */
  lemma AcceptButtonNeverShown(c: Console, i: nat, ok: bool)
    ensures !AcceptShown(c, i)
    ensures ApplyEvent(c, AcceptRide(i, ok)) == Step(c, None)
  {
    if i < |Shown(c)| {
      assert Shown(c)[i] in Shown(c);
    }
  }

  /** Nothing selected or an uppercase selection, scanner closed: the state
      the page starts in. */
  predicate Quiet(c: Console) {
    && (c.selected.Some? ==> c.selected.value.status in CanonicalStatuses)
    && !c.scannerOpen
  }

  /** Every card of every tab carries one of the uppercase tokens. */
  lemma ShownCanonical(c: Console, i: nat)
    requires i < |Shown(c)|
    ensures Shown(c)[i].status in CanonicalStatuses
  {
    assert Shown(c)[i] in Shown(c);
  }

  lemma ApplyKeepsQuiet(c: Console, ev: Event)
    requires Quiet(c)
    ensures Quiet(ApplyEvent(c, ev).console)
    ensures ApplyEvent(c, ev).sent.None?
  {
    match ev
    case Choose(i) =>
      if i < |Shown(c)| {
        ShownCanonical(c, i);
      }
    case AcceptRide(i, ok) =>
      AcceptButtonNeverShown(c, i, ok);
    case ScanButton =>
      assert ApplyEvent(c, ev).console == OpenScanner(c);
    case ConfirmScan(ok) =>
      assert ApplyEvent(c, ev) == Step(c, None);
    case _ =>
  }

  /** Whatever the listings carry and whatever the driver does, the scanner
      dialog never opens and the console never sends a request: the cards
      it can select carry uppercase statuses, and the scanner buttons test
      lowercase ones. */
  lemma {:induction false} ScannerNeverOpens(c: Console, evs: seq<Event>)
    requires Quiet(c)
    ensures Quiet(RunEvents(c, evs).console)
    ensures !RunEvents(c, evs).console.scannerOpen
    ensures RunEvents(c, evs).requests == []
    decreases |evs|
  {
    if |evs| > 0 {
      ApplyKeepsQuiet(c, evs[0]);
      ScannerNeverOpens(ApplyEvent(c, evs[0]).console, evs[1..]);
    }
  }

  // The same flow compared against the uppercase tokens the application
  // writes.

  /** The accept button shown on the cards of the available tab. */
  predicate AcceptShownCorrected(c: Console, i: nat) {
    i < |Shown(c)| && Shown(c)[i].status == "PENDING"
  }

  function AcceptRideCorrected(c: Console, i: nat, ok: bool): (r: Step)
    ensures AcceptShownCorrected(c, i) ==> r.sent == Some(Patch(Shown(c)[i].id, "ACCEPTED", c.driver))
    ensures !AcceptShownCorrected(c, i) ==> r == Step(c, None)
  {
    if AcceptShownCorrected(c, i) then Accept(c, Shown(c)[i].id, ok) else Step(c, None)
  }

  /** With the corrected guard, every card of the available tab has its
      accept button, and the booking it accepts is in the listing. */
  lemma AvailableCardsAcceptable(c: Console, i: nat)
    requires c.tab == AvailableTab && i < |Shown(c)|
    ensures AcceptShownCorrected(c, i)
    ensures FindById(c.deliveries, Shown(c)[i].id).Some?
  {
    assert Shown(c)[i] in Shown(c);
    var k :| 0 <= k < |c.deliveries| && c.deliveries[k] == Shown(c)[i];
  }

  function OpenScannerCorrected(c: Console): (r: Console)
    ensures r.scannerOpen <==>
              (c.scannerOpen || (c.selected.Some? && c.selected.value.status in {"ACCEPTED", "PICKED_UP"}))
    ensures r.(scannerOpen := c.scannerOpen) == c
  {
    if c.selected.Some? && (c.selected.value.status == "ACCEPTED" || c.selected.value.status == "PICKED_UP")
    then c.(scannerOpen := true)
    else c
  }

  function ConfirmCorrected(c: Console, ok: bool): (r: Step)
    ensures !(c.scannerOpen && c.selected.Some?) ==> r == Step(c, None)
    ensures c.scannerOpen && c.selected.Some? ==>
      (r.sent.Some? && r.sent.value.status == "PICKED_UP" <==> c.selected.value.status == "ACCEPTED")
  {
    if !(c.scannerOpen && c.selected.Some?) then Step(c, None)
    else if c.selected.value.status == "ACCEPTED" then Pickup(c, ok)
    else Deliver(c, ok)
  }

  /** Behind the corrected accept button and scanner buttons, the confirm
      button as written compares against `'accepted'` too: right after an
      accept it sends `DELIVERED`, skipping the pickup. */
  lemma ConfirmAfterAcceptSkipsPickup(c: Console, i: nat)
    requires c.tab == AvailableTab && i < |Shown(c)|
    ensures OpenScannerCorrected(AcceptRideCorrected(c, i, true).console).scannerOpen
    ensures Confirm(OpenScannerCorrected(AcceptRideCorrected(c, i, true).console), true).sent
              == Some(Patch(Shown(c)[i].id, "DELIVERED", None))
  {
    AvailableCardsAcceptable(c, i);
  }

  /** With the corrected comparisons the whole ride goes through from any
      card of the available tab: accept sends `ACCEPTED`, the first scan
      sends `PICKED_UP`, the second sends `DELIVERED` and clears the
      selection. */
  lemma CorrectedRideCompletes(c: Console, i: nat)
    requires c.tab == AvailableTab && i < |Shown(c)|
    ensures var id := Shown(c)[i].id;
      var a := AcceptRideCorrected(c, i, true);
      var p := ConfirmCorrected(OpenScannerCorrected(a.console), true);
      var d := ConfirmCorrected(OpenScannerCorrected(p.console), true);
      && a.sent == Some(Patch(id, "ACCEPTED", c.driver))
      && p.sent == Some(Patch(id, "PICKED_UP", None))
      && d.sent == Some(Patch(id, "DELIVERED", None))
      && d.console.selected.None?
      && !d.console.scannerOpen
  {
    AvailableCardsAcceptable(c, i);
  }

  predicate UppercaseDelivered(d: BookingRecord) {
    d.status == "DELIVERED"
  }

  /** The header summed over the uppercase `DELIVERED` token, one booking at
      a time. */
  function DailyEarningsCorrected(deliveries: seq<BookingRecord>): real
    decreases |deliveries|
  {
    if |deliveries| == 0 then 0.0
    else (if deliveries[0].status == "DELIVERED" then deliveries[0].price else 0.0)
         + DailyEarningsCorrected(deliveries[1..])
  }

  /** The corrected header is the header's filter-and-sum with the token
      replaced. */
  lemma {:induction false} DailyEarningsCorrectedIsFilterSum(deliveries: seq<BookingRecord>)
    ensures DailyEarningsCorrected(deliveries) == SumBy(Filter(deliveries, UppercaseDelivered), Price)
    decreases |deliveries|
  {
    if |deliveries| > 0 {
      var d, rest := deliveries[0], Filter(deliveries[1..], UppercaseDelivered);
      FilterCons(deliveries, UppercaseDelivered);
      if UppercaseDelivered(d) {
        assert ([d] + rest)[1..] == rest;
      }
      DailyEarningsCorrectedIsFilterSum(deliveries[1..]);
    }
  }

  /** With non-negative prices the corrected header is non-negative. */
  lemma {:induction false} DailyEarningsCorrectedNonNegative(deliveries: seq<BookingRecord>)
    requires forall i :: 0 <= i < |deliveries| ==> deliveries[i].price >= 0.0
    ensures DailyEarningsCorrected(deliveries) >= 0.0
    decreases |deliveries|
  {
    if |deliveries| > 0 {
      DailyEarningsCorrectedNonNegative(deliveries[1..]);
    }
  }

  /** With non-negative prices, the corrected header is at least the price
      of every delivered booking in the list. */
  lemma {:induction false} DailyEarningsCorrectedCountsDelivered(deliveries: seq<BookingRecord>, k: nat)
    requires forall i :: 0 <= i < |deliveries| ==> deliveries[i].price >= 0.0
    requires k < |deliveries| && deliveries[k].status == "DELIVERED"
    ensures DailyEarningsCorrected(deliveries) >= deliveries[k].price
    decreases |deliveries|
  {
    var tail := deliveries[1..];
    if k == 0 {
      DailyEarningsCorrectedNonNegative(tail);
    } else {
      assert tail[k - 1] == deliveries[k];
      DailyEarningsCorrectedCountsDelivered(tail, k - 1);
    }
  }

  /** The header as written misses a delivered booking that the corrected
      header counts. */
  lemma DailyEarningsMissesDelivery(d: BookingRecord)
    requires d.status == "DELIVERED" && d.price > 0.0
    ensures DailyEarnings([d]) == 0.0
    ensures DailyEarningsCorrected([d]) == d.price
  {
    assert Filter([d], LowercaseDelivered) == [];
  }
}

=== FILE: drivers_api.dfy ===
/** The `/api/drivers` route: a process-wide list of drivers in memory,
    appended to by `POST` and read by `GET`. Requests are handled one at a
    time. */
module DriversApi {
  import opened Common

  /** A registered driver: the object literal built by `POST`, as its
      fields. */
  type DriverRecord = map<string, Json>

  /** The fields a decoded body contributes when spread into an object
      literal (`...data`). */
  function Spread(body: Json): (r: map<string, Json>)
    ensures body.JObj? ==> r == body.fields
    ensures !body.JObj? ==> r == map[]
  {
    if body.JObj? then body.fields else map[]
  }

  /** The statistics every new driver starts with, whatever the request
      says. */
  const DefaultStats: map<string, Json> :=
    map["rating" := JNum(5.0), "totalDeliveries" := JNum(0.0), "earnings" := JNum(0.0)]

  /** `{ id: generated, ...data, rating: 5.0, totalDeliveries: 0,
      earnings: 0 }`: later fields win, so a request `id` replaces the
      generated one while the statistics always take their defaults. */
  function NewDriver(body: Json, generatedId: string): (d: DriverRecord)
    ensures d.Keys == {"id"} + Spread(body).Keys + DefaultStats.Keys
    ensures d["rating"] == JNum(5.0) && d["totalDeliveries"] == JNum(0.0) && d["earnings"] == JNum(0.0)
    ensures d["id"] == (if "id" in Spread(body) then Spread(body)["id"] else JStr(generatedId))
    ensures forall k :: k in Spread(body) && k !in DefaultStats ==> d[k] == Spread(body)[k]
  {
    var fields := Spread(body);
    var d := map["id" := JStr(generatedId)] + fields + DefaultStats;
    assert d.Keys == {"id"} + fields.Keys + DefaultStats.Keys;
    d
  }

  /** `POST` outcome: 201 with the new driver, or 400 with `success: false`
      when the body is not valid JSON. */
  datatype RegisterResponse = Registered(driver: DriverRecord) | Rejected {
    function Status(): int {
      if Registered? then 201 else 400
    }
  }

  datatype RegisterOutcome = RegisterOutcome(drivers: seq<DriverRecord>, response: RegisterResponse)

  /** `POST /api/drivers`. `body` is `None` when the request is not valid
      JSON (`request.json()` throws); `generatedId` stands for the random id. */
  function Register(drivers: seq<DriverRecord>, body: Option<Json>, generatedId: string): (r: RegisterOutcome)
    ensures r.response.Rejected? <==> body.None?
    ensures r.response.Rejected? ==> r.drivers == drivers
    ensures r.response.Registered? ==>
      && r.drivers == drivers + [r.response.driver]
      && r.response.driver == NewDriver(body.value, generatedId)
  {
    match body
    case None => RegisterOutcome(drivers, Rejected)
    case Some(j) =>
      var d := NewDriver(j, generatedId);
      RegisterOutcome(drivers + [d], Registered(d))
  }

  /** `GET /api/drivers`: the current list; the list itself is left as it
      was. */
  function ListDrivers(drivers: seq<DriverRecord>): (r: (seq<DriverRecord>, seq<DriverRecord>))
    ensures r.0 == drivers
    ensures r.1 == drivers
  {
    (drivers, drivers)
  }

  /** Runs a sequence of `POST`s (bodies with their generated ids). */
  function RegisterAll(drivers: seq<DriverRecord>, requests: seq<(Option<Json>, string)>): seq<DriverRecord>
    decreases |requests|
  {
    if |requests| == 0 then drivers
    else RegisterAll(Register(drivers, requests[0].0, requests[0].1).drivers, requests[1..])
  }

  /** The number of requests whose body is valid JSON. */
  function ValidBodies(requests: seq<(Option<Json>, string)>): nat {
    if |requests| == 0 then 0
    else (if requests[0].0.Some? then 1 else 0) + ValidBodies(requests[1..])
  }

  /** Registration only ever appends: earlier drivers keep their positions
      and contents, one driver is added per valid body, and a listing
      afterwards shows exactly the resulting list. */
  lemma {:induction false} RegisterAllAppends(drivers: seq<DriverRecord>, requests: seq<(Option<Json>, string)>)
    ensures |RegisterAll(drivers, requests)| == |drivers| + ValidBodies(requests)
    ensures RegisterAll(drivers, requests)[..|drivers|] == drivers
    ensures ListDrivers(RegisterAll(drivers, requests)).1 == RegisterAll(drivers, requests)
    decreases |requests|
  {
    if |requests| > 0 {
      var next := Register(drivers, requests[0].0, requests[0].1).drivers;
      RegisterAllAppends(next, requests[1..]);
      assert RegisterAll(next, requests[1..])[..|drivers|] == next[..|drivers|];
    }
  }
}

=== FILE: pricing.dfy ===
/** The pricing constants and helpers of `types/index.ts`: a unit price per
    baggage size, a fixed service fee, and a fixed platform commission rate.
    Money is an exact `real` (euros), so the split of a price into commission
    and driver earnings is exact rather than a floating-point accident. */
module Pricing {
  /** The four baggage sizes (`'small' | 'medium' | 'large' | 'xlarge'`). */
  datatype BaggageSize = Small | Medium | Large | XLarge

  /** The lowercase token the client sends for a size. */
  function Token(size: BaggageSize): string {
    match size
    case Small => "small"
    case Medium => "medium"
    case Large => "large"
    case XLarge => "xlarge"
  }

  /** Position of a size in the table, smallest first. */
  function Rank(size: BaggageSize): nat {
    match size
    case Small => 0
    case Medium => 1
    case Large => 2
    case XLarge => 3
  }

  /** `BAGGAGE_PRICES`: euros per bag. */
  function UnitPrice(size: BaggageSize): (p: int)
    ensures p > 0
  {
    match size
    case Small => 8
    case Medium => 12
    case Large => 18
    case XLarge => 25
  }

  /** `SERVICE_FEE`, in euros, added once per booking. */
  const ServiceFee: int := 2

  /** `COMMISSION_RATE`: the platform keeps 20 % of every price. */
  const CommissionRate: real := 0.2

  /** `calculateTotalPrice`: unit price times bag count plus the service fee. */
  function TotalPrice(size: BaggageSize, count: int): (p: int)
    ensures count >= 1 ==> p >= UnitPrice(size) + ServiceFee
    ensures count >= 0 ==> p >= ServiceFee
  {
    UnitPrice(size) * count + ServiceFee
  }

  /** `calculateDriverEarnings`: what is left of a price once the commission
      is taken. Over exact arithmetic the part taken away is exactly the
      commission rate's share, and for a non-negative price the earnings
      lie between zero and the price. */
  function DriverEarnings(price: real): (e: real)
    ensures price - e == price * CommissionRate
    ensures price >= 0.0 ==> 0.0 <= e <= price
  {
    price * (1.0 - CommissionRate)
  }

  /** The platform's share of a price. */
  function Commission(price: real): (c: real)
    ensures price >= 0.0 ==> 0.0 <= c <= price
  {
    price * CommissionRate
  }

  /** Commission and driver earnings add up to the price, exactly. */
  lemma CommissionPlusEarnings(price: real)
    ensures Commission(price) + DriverEarnings(price) == price
  {
  }

  /** Larger sizes cost strictly more per bag. */
  lemma UnitPriceStrictlyIncreasing(a: BaggageSize, b: BaggageSize)
    ensures Rank(a) < Rank(b) <==> UnitPrice(a) < UnitPrice(b)
  {
  }

  /** For a fixed non-negative bag count, the price never decreases with the
      size, and for at least one bag a strictly larger size costs strictly
      more. */
  lemma TotalPriceMonotoneInSize(a: BaggageSize, b: BaggageSize, count: int)
    requires Rank(a) <= Rank(b)
    requires count >= 0
    ensures TotalPrice(a, count) <= TotalPrice(b, count)
    ensures Rank(a) < Rank(b) && count >= 1 ==> TotalPrice(a, count) < TotalPrice(b, count)
  {
  }

  /** For a fixed size, every extra bag adds exactly its unit price, so the
      price is strictly increasing in the count. */
  lemma TotalPriceStrictlyIncreasingInCount(size: BaggageSize, n: int, m: int)
    requires n < m
    ensures TotalPrice(size, m) - TotalPrice(size, n) == UnitPrice(size) * (m - n)
    ensures TotalPrice(size, n) < TotalPrice(size, m)
  {
  }

  /** Two medium bags: 12 * 2 + 2 = 26 euros, of which 5.2 is commission and
      20.8 goes to the driver. */
  lemma MediumTwoBagsExample()
    ensures TotalPrice(Medium, 2) == 26
    ensures Commission(26.0) == 5.2
    ensures DriverEarnings(26.0) == 20.8
  {
  }
}

=== FILE: seqs.dfy ===
/** Order-preserving filtering, counting and summing over sequences: the
    `Array.prototype.filter` / `reduce` idiom that every list view of the
    application is built from, defined once with its properties. */
module Seqs {

  /** `a` can be obtained from `b` by deleting elements: the relative order of
      what is kept is the order in `b`. */
  predicate IsSubsequence<T(==,!new)>(a: seq<T>, b: seq<T>)
    decreases |b|
  {
    |a| == 0 ||
    (|b| > 0 &&
     ((a[0] == b[0] && IsSubsequence(a[1..], b[1..])) || IsSubsequence(a, b[1..])))
  }

  /** The elements of `s` satisfying `p`, in their original order. */
  function Filter<T(==,!new)>(s: seq<T>, p: T -> bool): (r: seq<T>)
    ensures |r| <= |s|
    ensures forall x :: x in r <==> x in s && p(x)
    ensures forall i :: 0 <= i < |r| ==> p(r[i])
    ensures forall x :: multiset(r)[x] == if p(x) then multiset(s)[x] else 0
    ensures IsSubsequence(r, s)
  {
    if |s| == 0 then []
    else
      var rest := Filter(s[1..], p);
      assert s == [s[0]] + s[1..];
      assert forall x :: x in s <==> x == s[0] || x in s[1..];
      if p(s[0]) then [s[0]] + rest else rest
  }

  /** One step of `Filter`: the first element is kept exactly when it
      satisfies `p`. */
  lemma FilterCons<T(!new)>(s: seq<T>, p: T -> bool)
    requires |s| > 0
    ensures Filter(s, p) == if p(s[0]) then [s[0]] + Filter(s[1..], p) else Filter(s[1..], p)
  {
  }

  /** Every element of `s` lands in exactly one of the two halves of a
      predicate and its negation: the lengths add up, and so do the
      multisets. */
  lemma FilterPartition<T(!new)>(s: seq<T>, p: T -> bool, q: T -> bool)
    requires forall x :: q(x) == !p(x)
    ensures |Filter(s, p)| + |Filter(s, q)| == |s|
    ensures multiset(Filter(s, p)) + multiset(Filter(s, q)) == multiset(s)
  {
    var a, b := Filter(s, p), Filter(s, q);
    forall x ensures (multiset(a) + multiset(b))[x] == multiset(s)[x] {
      assert q(x) == !p(x);
    }
    assert multiset(a) + multiset(b) == multiset(s);
    assert |multiset(a) + multiset(b)| == |multiset(s)|;
  }

  /** Filtering commutes with concatenation. */
  lemma {:induction false} FilterAppend<T(!new)>(a: seq<T>, b: seq<T>, p: T -> bool)
    ensures Filter(a + b, p) == Filter(a, p) + Filter(b, p)
  {
    if |a| > 0 {
      assert (a + b)[1..] == a[1..] + b;
      FilterAppend(a[1..], b, p);
    } else {
      assert a + b == b;
    }
  }

  /** Number of elements of `s` satisfying `p` (`s.filter(p).length`). */
  function Count<T(==,!new)>(s: seq<T>, p: T -> bool): (n: nat)
    ensures n <= |s|
    ensures n == 0 <==> forall i :: 0 <= i < |s| ==> !p(s[i])
  {
    var f := Filter(s, p);
    assert forall i :: 0 <= i < |s| ==> (p(s[i]) ==> s[i] in f);
    |f|
  }

  /** Appending one element adds one to the count exactly when it satisfies
      `p`; with `Count([], p) == 0` this fixes every count. */
  lemma CountSnoc<T(!new)>(s: seq<T>, x: T, p: T -> bool)
    ensures Count(s + [x], p) == Count(s, p) + (if p(x) then 1 else 0)
  {
    FilterAppend(s, [x], p);
    FilterCons([x], p);
    assert [x][1..] == [];
  }

  /** `s.reduce((sum, x) => sum + f(x), 0)`. */
  function SumBy<T>(s: seq<T>, f: T -> real): real
  {
    if |s| == 0 then 0.0 else f(s[0]) + SumBy(s[1..], f)
  }

  /** A sum over a sequence is the sum over its first element plus the rest;
      appending one element adds its term at the end. */
  lemma {:induction false} SumBySnoc<T>(s: seq<T>, x: T, f: T -> real)
    ensures SumBy(s + [x], f) == SumBy(s, f) + f(x)
  {
    if |s| == 0 {
      assert s + [x] == [x];
    } else {
      assert (s + [x])[1..] == s[1..] + [x];
      SumBySnoc(s[1..], x, f);
    }
  }

  /** `s` is ordered by `key`, largest first. */
  predicate SortedDescBy<T>(s: seq<T>, key: T -> int) {
    forall i, j :: 0 <= i < j < |s| ==> key(s[i]) >= key(s[j])
  }

  /** Filtering a list that is ordered newest-first keeps it newest-first. */
  lemma {:induction false} FilterKeepsSortedDesc<T(!new)>(s: seq<T>, p: T -> bool, key: T -> int)
    requires SortedDescBy(s, key)
    ensures SortedDescBy(Filter(s, p), key)
  {
    if |s| > 0 {
      var rest := Filter(s[1..], p);
      FilterKeepsSortedDesc(s[1..], p, key);
      if p(s[0]) {
        var r := [s[0]] + rest;
        forall i, j | 0 <= i < j < |r|
          ensures key(r[i]) >= key(r[j])
        {
          if i == 0 {
            assert r[j] in s[1..];
          }
        }
      }
    }
  }
}

=== FILE: signup_api.dfy ===
/** `POST /api/auth/signup`: validates the required fields, refuses an email
    that is already registered, stores the hashed password with defaulted
    role and phone, and answers with the public part of the account. */
module SignupApi {
  import opened Common
  import opened Store

  /** The decoded body; `None` is an absent field. */
  datatype SignupRequest = SignupRequest(
    email: Option<string>,
    password: Option<string>,
    name: Option<string>,
    phone: Option<string>,
    role: Option<string>)

  /** What the success response exposes: no password. */
  datatype PublicUser = PublicUser(id: string, email: string, name: string, role: string)

  datatype SignupResponse =
    | SignedUp(user: PublicUser)   // 201
    | MissingFields                // 400
    | AlreadyExists                // 400
    | HashFailed                   // 500
    | StoreFailed                  // 500
    | UnreadableBody               // 500
  {
    function Status(): int {
      match this
      case SignedUp(_) => 201
      case MissingFields => 400
      case AlreadyExists => 400
      case HashFailed => 500
      case StoreFailed => 500
      case UnreadableBody => 500
    }
  }

  datatype SignupOutcome = SignupOutcome(users: map<string, User>, response: SignupResponse)

  /** The role stored when the body names none (`role = 'CLIENT'`). */
  const DefaultRole: string := "CLIENT"

  /** The account a valid request creates: it stores the hash, never the
      password; an empty phone is stored as no phone; a missing role
      defaults to CLIENT. */
  function NewUser(req: SignupRequest, hashed: string, newId: string): (u: User)
    requires req.email.Some? && req.name.Some?
    ensures u.id == newId && u.email == req.email.value && u.name == req.name.value
    ensures u.password == hashed
    ensures u.phone.Some? <==> Present(req.phone)
    ensures u.phone.Some? ==> u.phone == req.phone
    ensures req.role.None? ==> u.role == DefaultRole
    ensures req.role.Some? ==> u.role == req.role.value
  {
    User(newId, req.email.value, hashed, req.name.value,
         if Present(req.phone) then req.phone else None,
         req.role.GetOr(DefaultRole))
  }

  /** `POST /api/auth/signup` over the users keyed by email. `hash` stands
      for the one-way password hash (undefined when hashing fails) and
      `newId` for the id the database assigns; an id already in use makes
      the insert fail. */
  function Signup(users: map<string, User>, req: SignupRequest, hash: string -> Option<string>, newId: string)
    : (r: SignupOutcome)
    ensures r.response.MissingFields? <==> !(Present(req.email) && Present(req.password) && Present(req.name))
    ensures !r.response.SignedUp? ==> r.users == users
    ensures r.response.AlreadyExists? <==>
      Present(req.email) && Present(req.password) && Present(req.name) && req.email.value in users
    ensures r.response.HashFailed? <==>
      Present(req.email) && Present(req.password) && Present(req.name) && req.email.value !in users &&
      hash(req.password.value).None?
    ensures r.response.SignedUp? ==>
      && req.email.value !in users
      && hash(req.password.value).Some?
      && r.users == users[req.email.value := NewUser(req, hash(req.password.value).value, newId)]
      && |r.users| == |users| + 1
      && r.response.user == PublicUser(newId, req.email.value, req.name.value, req.role.GetOr(DefaultRole))
    ensures Present(req.email) && Present(req.password) && Present(req.name) && req.email.value !in users &&
            hash(req.password.value).Some? ==>
              (r.response.SignedUp? <==> !UserIdTaken(users, newId))
    ensures !r.response.UnreadableBody?
  {
    if !(Present(req.email) && Present(req.password) && Present(req.name)) then
      SignupOutcome(users, MissingFields)
    else if req.email.value in users then
      SignupOutcome(users, AlreadyExists)
    else
      match hash(req.password.value)
      case None => SignupOutcome(users, HashFailed)
      case Some(hashed) =>
        if UserIdTaken(users, newId) then SignupOutcome(users, StoreFailed)
        else
          var u := NewUser(req, hashed, newId);
          SignupOutcome(users[u.email := u], SignedUp(PublicUser(u.id, u.email, u.name, u.role)))
  }

  /** The whole handler on the raw body: `None` is a body that is not JSON
      or is `null`, which throws before validation (reading the body or
      destructuring it) and lands in the outer catch with 500; a readable
      body is signed up as above. */
  function SignupBody(users: map<string, User>, body: Option<SignupRequest>, hash: string -> Option<string>,
                      newId: string): (r: SignupOutcome)
    ensures body.None? ==> r.users == users && r.response.Status() == 500
    ensures body.Some? ==> r == Signup(users, body.value, hash, newId)
    ensures r.response.UnreadableBody? <==> body.None?
  {
    match body
    case None => SignupOutcome(users, UnreadableBody)
    case Some(req) => Signup(users, req, hash, newId)
  }

  /** The stored account: the password is the hash of the submitted one, a
      missing or empty phone is stored as absent, an absent role becomes
      `CLIENT`, and the response repeats the stored id, email, name and
      role. */
  lemma SignupStoresAccount(users: map<string, User>, req: SignupRequest, hash: string -> Option<string>, newId: string)
    requires Signup(users, req, hash, newId).response.SignedUp?
    ensures var out := Signup(users, req, hash, newId);
      var u := out.users[req.email.value];
      && Some(u.password) == hash(req.password.value)
      && (u.phone.None? <==> !Present(req.phone))
      && (req.role.None? ==> u.role == "CLIENT")
      && out.response.user == PublicUser(u.id, u.email, u.name, u.role)
  {
  }

  /** Sign-up keeps the store keyed by email. */
  lemma SignupKeepsWellFormed(users: map<string, User>, req: SignupRequest, hash: string -> Option<string>, newId: string)
    requires WellFormed(Db(users, []))
    ensures WellFormed(Db(Signup(users, req, hash, newId).users, []))
  {
  }

  /** Once an email has signed up, signing up again with it fails with 400
      and changes nothing, whatever the rest of the second request says. */
  lemma SecondSignupFails(users: map<string, User>, req: SignupRequest, hash: string -> Option<string>,
                          newId: string, again: SignupRequest, hash': string -> Option<string>, newId': string)
    requires Signup(users, req, hash, newId).response.SignedUp?
    requires again.email == req.email && Present(again.password) && Present(again.name)
    ensures var first := Signup(users, req, hash, newId).users;
      var second := Signup(first, again, hash', newId');
      second.response == AlreadyExists && second.response.Status() == 400 && second.users == first
  {
  }
}

=== FILE: store.dfy ===
/** The persisted entities, held in memory in place of the relational
    database: users keyed by their unique email, and bookings in insertion
    order. Only the fields the modelled code reads or writes appear. */
module Store {
  import opened Common

  /** A user account. `password` holds whatever the creating handler stored
      (a hash for sign-ups, the literal placeholder for temporary customers). */
  datatype User = User(
    id: string,
    email: string,
    password: string,
    name: string,
    phone: Option<string>,
    role: string)

  /** A stored booking, with the coordinate pairs split into separate
      latitude and longitude columns. `status` and `driverId` are the
      lifecycle fields; `createdAt` is the creation instant used for
      ordering. */
  datatype BookingRecord = BookingRecord(
    id: string,
    customerId: string,
    customerName: string,
    customerPhone: string,
    pickupLocation: string,
    pickupLatitude: real,
    pickupLongitude: real,
    deliveryLocation: string,
    deliveryLatitude: real,
    deliveryLongitude: real,
    baggageSize: string,
    baggageCount: int,
    pickupTime: string,
    price: real,
    commission: real,
    driverEarnings: real,
    status: string,
    driverId: Option<string>,
    createdAt: int)

  /** The whole store. Email uniqueness is structural: the map is keyed by
      email, and `WellFormed` ties each key to its user's email field and
      each booking to a stored customer (the foreign key of the booking's
      `customer` relation). */
  datatype Db = Db(users: map<string, User>, bookings: seq<BookingRecord>)

  ghost predicate WellFormed(db: Db) {
    && (forall e :: e in db.users ==> db.users[e].email == e)
    && (forall i :: 0 <= i < |db.bookings| ==> UserIdTaken(db.users, db.bookings[i].customerId))
  }

  /** Some stored user already carries this id. */
  predicate UserIdTaken(users: map<string, User>, id: string) {
    exists e :: e in users && users[e].id == id
  }

  /** Some stored booking already carries this id. */
  predicate BookingIdTaken(bookings: seq<BookingRecord>, id: string) {
    exists i :: 0 <= i < |bookings| && bookings[i].id == id
  }

  /** The uppercase status tokens the application writes into bookings. */
  const CanonicalStatuses: set<string> :=
    {"PENDING", "ACCEPTED", "PICKED_UP", "DELIVERED", "CANCELLED"}

  /** Every booking of the list carries one of the uppercase tokens. */
  predicate AllCanonical(bookings: seq<BookingRecord>) {
    forall i :: 0 <= i < |bookings| ==> bookings[i].status in CanonicalStatuses
  }

  /** Ordering key of the listing. */
  function CreatedAt(b: BookingRecord): int {
    b.createdAt
  }
}

=== FILE: text.dfy ===
/** String helpers the route handlers rely on. */
module Text {

  /** Upper-case mapping of one character, restricted to ASCII letters. */
  function UpperChar(c: char): char {
    if 'a' <= c <= 'z' then (c as int - 'a' as int + 'A' as int) as char else c
  }

  predicate IsLowerAscii(c: char) {
    'a' <= c <= 'z'
  }

  /** `String.prototype.toUpperCase` on ASCII text: every lowercase ASCII
      letter becomes its capital and every other character is kept, so the
      length is unchanged and no lowercase ASCII letter survives. */
  function ToUpper(s: string): (r: string)
    ensures |r| == |s|
    ensures forall i :: 0 <= i < |s| ==> (IsLowerAscii(s[i]) ==> r[i] as int == s[i] as int - 32)
    ensures forall i :: 0 <= i < |s| ==> (!IsLowerAscii(s[i]) ==> r[i] == s[i])
    ensures forall i :: 0 <= i < |r| ==> !IsLowerAscii(r[i])
  {
    if |s| == 0 then "" else [UpperChar(s[0])] + ToUpper(s[1..])
  }

  /** Upper-casing twice is upper-casing once. */
  lemma ToUpperIdempotent(s: string)
    ensures ToUpper(ToUpper(s)) == ToUpper(s)
  {
  }

  /** A string without lowercase ASCII letters is its own upper-case form. */
  lemma ToUpperFixesUpper(s: string)
    requires forall i :: 0 <= i < |s| ==> !IsLowerAscii(s[i])
    ensures ToUpper(s) == s
  {
  }
}
